=== FILE: README.md ===
# diy-iot-backend, modelled in Dafny

A Dafny model of the decision logic of the diy-iot-backend server. The server is a Rocket web backend for home-made smart lights. It registers users and their lights, stores them in PostgreSQL through Diesel, relays light commands over CoAP, and acts as an OAuth 2.0 provider so that Google Smart Home can list a user's lights. The model covers seven parts of it:

- **Token issuer** (`issuer.dfy`, `src/jwt_issuer.rs`). This is the server's own `Issuer`. It keeps an access index and a refresh index onto shared token records, plus a usage counter fed to the token generator and an optional validity duration. Issuing and refresh-token rotation are transitions of an immutable state record. Records carry their allocation number, and the issuer remembers which refresh keys `HashMap::insert` kept from an earlier entry, so both pointer comparisons of the source are modelled. An index-consistency invariant is proved to hold across the transitions, provided the tokens handed out are fresh. The stub access token `"Hewwo"` breaks it, and the trace proved in `Issuer.StubBreaksConsistency` shows how.
- **Consent and client registry** (`oauth.dfy`, `src/routes/oauth.rs`). This covers the one-client registry, the consent page and the query its buttons carry, the owner a consent submission resolves from the session cookie, and the protected resource.
- **Session cookie** (`session.dfy`, `src/utils.rs`). The cookie is a JWT: section 4.1.2 of RFC 7519 for `sub`, section 4.1.4 for `exp`. The user id is printed into it and parsed back out of it as an `i32`.
- **Google SYNC** (`google.dfy`, `src/routes/google.rs`). Stored devices are translated into Google's device format, and the fulfilment endpoint dispatches on the intent.
- **Device routes** (`device_routes.dfy`, `src/routes/device.rs`). This covers the order of the checks on light commands, the `LightState` each command sends, and how CoAP codes become replies. CoAP codes follow section 5.9 of RFC 7252: 2.04 Changed, 4.04 Not Found. It also covers when a device registration commits.
- **User routes** (`user_routes.dfy`, `src/routes/user.rs`). This covers the order of the registration and login checks, the error mapping, the cookie expiry, and the `me` projection.
- **Tables** (`models.dfy`, `light_table.dfy`, `device_table.dfy`, `user_table.dfy`, `src/models.rs`, `src/models/*.rs`). The Diesel queries become operations on in-memory sequences of rows, kept in insertion order. `rows.dfy` holds the generic query shapes: filter, first match, order by key descending.

Libraries are parameters: JWT signing and checking, the OAuth token generator, Argon2, the device signature check, CoAP replies, and oxide_auth's resource flow. The clock is a parameter `now`. `numbers.dfy` holds the fixed-width integer types, the decimal `i32` printer and parser with their round trip, and the UUID text form.

Two behaviours of the code deserve a note:
- **Unauthenticated consent.** Consent given without a session is not refused: it authorises the placeholder owner `"-1"` (`OAuth.AnonymousAcceptAuthorizes`). The Google endpoint then serves such a grant as user -1 (`Google.AnonymousGrantSyncsNothing`).
- **Generator failure during refresh.** When the generator fails, the refresh entry has already been removed, so the refresh token is gone although no new one was issued (`Issuer.Refresh`).

## Model

| member | source | states |
|---|---|---|
| Numbers.WrappingInc | src/jwt_issuer.rs:84 | The counter advances by one and wraps from 2^64-1 to 0. |
| Numbers.AsUsize | src/routes/user.rs:78 | The `as usize` cast keeps a value that is already a valid usize, and adds 2^64 to a negative i64 (two's complement). |
| Numbers.I32ToString | src/routes/user.rs:73 | The printed id is non-empty and starts with '-' exactly when the id is negative. |
| Numbers.ParseI32 | src/utils.rs:47 | A string is accepted exactly when it is digits, "+" then digits, or "-" then digits, with a value in the i32 range, and the result is that value. The empty string and a bare sign are rejected. |
| Numbers.DecimalRoundTrip | src/routes/user.rs:73 | The digits printed for a natural number read back as that number. |
| Numbers.I32RoundTrip | src/utils.rs:47-51 | Parsing the printed form of any i32 gives the same i32 back. |
| Numbers.I32ToStringInjective | src/routes/user.rs:141 | Distinct user ids print to distinct `sub` strings. |
| Numbers.UuidToString | src/routes/device.rs:197 | A UUID prints as 36 characters with hyphens at positions 8, 13, 18 and 23. Without the hyphens it is the 32 lower-case hex digits of the value. |
| Numbers.HexRoundTrip | src/routes/device.rs:197 | Reading the hex digits back gives the number, when it fits in the width. |
| Numbers.UuidToStringInjective | src/routes/device.rs:197 | Distinct UUIDs print differently, so a device's internal name identifies its id. |
| Numbers.Contains | src/routes/device.rs:223 | `contains` holds exactly when the needle occurs in the string at some offset. |
| Rows.Filter | src/models/light.rs:140-144 | Every row of the result is a table row that matches, and every matching row appears. The result is never longer than the table, and it is the same length exactly when every row matches. |
| Rows.FilterCounts | src/models/light.rs:140-144 | Each matching row appears exactly as many times as in the table, and no other row appears. |
| Rows.FilterAppend | src/models/light.rs:140-144 | The matches of a concatenation are the first part's matches followed by the second part's, so table order is kept. |
| Rows.First | src/models/light.rs:145-153 | `None` exactly when no row matches; otherwise the earliest matching row. |
| Rows.SortDesc | src/models/device.rs:43-48 | The same rows, rearranged so that the key never increases. |
| Models.LightNew | src/models/light.rs:70-79 | A new light has the given id, secret and owner, is on, and has brightness 255 and colour 255·255·255. |
| Models.NewUserFrom | src/models/user.rs:50-59 | Email, password, first name and last name are copied. |
| Models.NewUserIgnoresRepetition | src/models.rs:69-78 | Registrations that differ only in the repeated password give the same insertable user. |
| Models.SwitchOn | src/models.rs:128-130 | The light is on and every other column is unchanged. |
| Models.SwitchOff | src/models.rs:131-133 | The light is off and every other column is unchanged. |
| Models.SwitchLastWins | src/models.rs:127-134 | Each switch is idempotent, only the last switch counts, and switching to the current state changes nothing. |
| LightTable.RemoveDevice | src/models/light.rs:80-86 | Reports true exactly when some row had the id. The rows left are exactly the rows with other ids, each as many times as the table holds it. |
| LightTable.InsertDevice | src/models/light.rs:87-97 | Succeeds exactly when the id is new, and then appends `Light::new`. Otherwise the table is unchanged. |
| LightTable.UpdateDeviceBrightness | src/models/light.rs:98-111 | Only the brightness of rows with the id changes. A row is returned exactly when one exists, and it carries the new brightness. |
| LightTable.UpdateDeviceColor | src/models/light.rs:112-125 | As written, no row's colour changes: the update is the brightness update. |
| LightTable.UpdateDeviceColorIntended | src/models/light.rs:112-125 | Only the `rgb` of rows with the id changes, and the returned row carries the colour. |
| LightTable.ColorUpdateLosesColor | src/models.rs:180-193 | A colour update as written leaves a different stored colour in place and puts the colour into brightness. The intended update stores it. |
| LightTable.UpdateDeviceIsOn | src/models/light.rs:126-139 | Only `is_on` of rows with the id changes. A row is returned exactly when one exists. |
| LightTable.SwitchMatchesUpdate | src/models.rs:127-134 | Updating `is_on` of a row equals switching that light on or off. |
| LightTable.UpdateDevice | src/models/light.rs:184-201 | On-state, brightness and colour of rows with the id are set together; other rows are unchanged. |
| LightTable.GetDevicesByUser | src/models/light.rs:140-144 | Exactly the lights of the user, each as many times as the table holds it. |
| LightTable.GetDeviceById | src/models/light.rs:145-153 | `None` exactly when no row has the id; otherwise the first row with it. |
| LightTable.ToFullLight | src/models/light.rs:166-180 | Identity, type, name and nicknames come from the device row. Colour, brightness and on-state come from the light row. |
| LightTable.GetFullDeviceDataByUser | src/models/light.rs:154-182 | An entry is listed exactly when some light and some device of the user share the id, and the entry is their join. |
| LightTable.GetTraitsForDeviceType | src/models/light.rs:62-66 | Exactly the trait rows of the device type, each as many times as the table holds it. |
| DeviceTable.GetAllDevices | src/models/device.rs:43-48 | Every row exactly once, ordered by id descending. |
| DeviceTable.InsertDevice | src/models/device.rs:50-55 | Succeeds exactly when the id is new, and then appends the row. Otherwise the table is unchanged. |
| DeviceTable.GetDevicesByUser | src/models/device.rs:57-61 | Exactly the devices of the user, each as many times as the table holds it. |
| DeviceTable.GetDeviceById | src/models/device.rs:62-71 | `None` exactly when no row has the id; otherwise the first row with it. |
| DeviceTable.GetDeviceOwner | src/models/device.rs:72-82 | The owner of the device the id lookup finds, or `None` exactly when it finds none. |
| UserTable.GetAllUsers | src/models/user.rs:61-66 | Every row exactly once, ordered by id descending. |
| UserTable.InsertUser | src/models/user.rs:68-75 | A database fault is reported first, then a taken email with the `users_email_key` message. Otherwise the row is appended with the next id. |
| UserTable.GetUserByEmail | src/models/user.rs:77-81 | Exactly the rows with the email, each as many times as the table holds it; empty exactly when nobody has it. |
| UserTable.GetUserById | src/models/user.rs:82-86 | Exactly the rows with the id, each as many times as the table holds it. |
| UserTable.InsertedUserIsFound | src/routes/user.rs:68-99 | After inserting a new email, the lookup finds exactly the new row, so the branch marked impossible cannot be reached. |
| Session.ClaimFromJwt | src/utils.rs:27-37 | `None` exactly when decoding fails; otherwise the decoded claims. |
| Session.GetUserIdFromCookie | src/utils.rs:38-52 | No cookie or an undecodable cookie gives `None`. Otherwise the result is the i32 parse of `sub`. |
| Session.JwtClaimsRoundTrip | src/utils.rs:14-25 | The claims `jwt_from_id` signs, with `sub` the user and `exp` the timestamp, are what `claim_form_jwt` reads back before expiry. |
| Session.SessionCookieRoundTrip | src/utils.rs:38-52 | The cookie made for user n identifies user n until it expires. |
| Issuer.New | src/jwt_issuer.rs:52-60 | A new issuer has empty indices and satisfies the index invariant. |
| Issuer.SetDuration | src/jwt_issuer.rs:61-65 | With a policy, `until` becomes now plus the duration. Without one the grant is unchanged. Nothing but `until` ever changes. |
| Issuer.RecoverToken | src/jwt_issuer.rs:151-153 | The grant of the record under the access token, `None` exactly when it is not indexed. |
| Issuer.RecoverRefresh | src/jwt_issuer.rs:148-150 | The grant of the record under the refresh token, `None` exactly when it is not indexed. |
| Issuer.Issue | src/jwt_issuer.rs:68-99 | Refused exactly when the generator fails on tag usage+1, and then nothing changes. On success the counter advances, both tokens recover the grant after the duration policy, `until` is that grant's, and every other token recovers as before. The record is a new allocation. Its refresh key is kept from an earlier entry exactly when that token was already indexed. |
| Issuer.IssueAsWritten | src/jwt_issuer.rs:49-51 | As written, every issued access token is "Hewwo". |
| Issuer.Refresh | src/jwt_issuer.rs:100-147 | An unknown key is refused with no change. A key whose stored `Arc` is not the one its record names panics, after the entry is removed. A consistent issuer never panics. Refused exactly when the key is unknown or the generator fails on tag `usage`, which leaves the old refresh entry removed. On success both new tokens recover the updated grant, the record keeps its allocation, the counter ends at usage+1, and the new refresh key is kept exactly when another entry held that token. |
| Issuer.IssuePreservesConsistency | src/jwt_issuer.rs:84-92 | With an access token and a generated refresh token that are not already indexed, issuing keeps the index invariant. |
| Issuer.IssueGrowsIndices | src/jwt_issuer.rs:90-91 | With fresh tokens, issuing adds exactly one entry to each index. |
| Issuer.IssueReusedAccessBreaksConsistency | src/jwt_issuer.rs:90 | Issuing with an access token a linked record already holds breaks the invariant. |
| Issuer.RefreshPreservesConsistency | src/jwt_issuer.rs:102-138 | With a fresh access token, and a generated refresh token no other entry holds, a refresh keeps the invariant, whether or not the generator fails. |
| Issuer.RefreshRotates | src/jwt_issuer.rs:122-138 | A successful refresh makes the old access and refresh tokens unknown and leaves every other token as it was. |
| Issuer.SecondRefreshRefused | src/jwt_issuer.rs:102-106 | A refresh token that has been used is refused as unknown the next time. |
| Issuer.RefreshReusesIssueTag | src/jwt_issuer.rs:72-117 | The first refresh after an issue asks the generator with the tag the issue used, usage+1. It panics exactly when the issue's refresh token had already been indexed. Otherwise it is refused exactly when the generator fails on that tag, and it hands out the generator's answer. |
| Issuer.RefreshCollisionPanics | src/jwt_issuer.rs:102-138 | With a generator that depends on the tag alone, refreshing the first of two issues receives the second issue's refresh token. The insert keeps the old key, the invariant breaks, and refreshing that token trips the first `assert!`. |
| Issuer.StubBreaksConsistency | src/jwt_issuer.rs:49-51 | Two issues with the stub token leave one access entry for two refresh entries and break the invariant. Refreshing the first pair then trips the `assert!` on the access entry. |
| OAuth.Preconfigured | src/routes/oauth.rs:144-156 | The registry holds exactly `LocalClient`: public, with its redirect URL and scope `default-scope`. |
| OAuth.OnlyLocalClient | src/routes/oauth.rs:144-156 | A client id is known exactly when it is `LocalClient`. |
| OAuth.ConsentQuery | src/routes/oauth.rs:225-237 | The query lists response_type=code, the client id, the redirect URI and user_id=2, in that order, then `state` when present. |
| OAuth.ConsentPageHtml | src/routes/oauth.rs:213-247 | Both buttons post the query to the route. Accept adds allow=true and Deny adds deny=true. The page names the client, the redirect and the scope. |
| OAuth.ConsentForm | src/routes/oauth.rs:184-199 | Always in progress, showing the page for `/api/v1/authorize`. |
| OAuth.ConsentDecision | src/routes/oauth.rs:201-211 | Authorised with the owner exactly when allowed, denied otherwise. |
| OAuth.QueryAllow | src/routes/oauth.rs:42-45 | The first `allow` parameter decides: its value read as a boolean. A query without one gives no value. |
| OAuth.ConsentOwner | src/routes/oauth.rs:50-72 | With no cookie, or one that does not decode, the owner is "-1". Otherwise it is the claims' `sub`. |
| OAuth.AuthorizeConsent | src/routes/oauth.rs:42-82 | Authorised exactly when `allow` is true, with the cookie's owner. Denied otherwise, including when `allow` is absent. |
| OAuth.DenyButtonDenies | src/routes/oauth.rs:213-237 | Submitting the Deny button is denied, whatever the session. |
| OAuth.AcceptButtonAuthorizes | src/routes/oauth.rs:213-237 | Submitting the Accept button authorises the cookie's owner. |
| OAuth.AnonymousAcceptAuthorizes | src/routes/oauth.rs:50-60 | Accepting without a session authorises owner "-1" instead of denying. |
| OAuth.LoggedInAcceptAuthorizes | src/routes/oauth.rs:61-81 | Accepting with the session cookie made for a user authorises that user. |
| OAuth.ProtectedResource | src/routes/oauth.rs:112-141 | "Hello, world" exactly when the flow admits scope `default-scope`. The denial page, linking to the authorize route, exactly when it challenges. |
| Google.PresentTraits | src/routes/google.rs:89-94 | Exactly the set traits, none more than stored. |
| Google.PresentTraitsInOrder | src/routes/google.rs:89-94 | The present traits are the values of the set entries, in stored order and with their repetitions. |
| Google.ToGoogleDevice | src/routes/google.rs:88-134 | Translated exactly for the two light types. The result is a non-reporting LIGHT with the device's id, traits and internal name, and colour model "rgb" exactly for an RGB light. It never has a temperature range. |
| Google.SyncDevices | src/routes/google.rs:86-135 | No more devices than rows. Each is a non-reporting LIGHT translated from some row. |
| Google.SyncDevicesIsTranslatedLights | src/routes/google.rs:86-135 | The filter-map equals keeping the light rows in order and translating each one. |
| Google.HandleSync | src/routes/google.rs:85-145 | Echoes the request id. `agentUserId` is the user's id printed in canonical decimal, which parses back to the user. The devices are exactly the translations of that user's light rows, in table order, each from a row of that user. There are no error fields. |
| Google.NotSupported | src/routes/google.rs:57-69 | Echoes the request id, with only `notSupported` / `ERROR` set. |
| Google.Fullfilment | src/routes/google.rs:32-83 | The flow's challenge and error pass through. The endpoint answers exactly when the grant's owner parses and there is an input. SYNC gives the sync answer; any other intent gives `notSupported`. |
| Google.AnonymousGrantSyncsNothing | src/routes/google.rs:45-52 | A grant for owner "-1" is served as user -1 and, when no device belongs to -1, lists none. |
| DeviceRoutes.CheckCommand | src/routes/device.rs:32-46 | The checks run in order: the light exists, the value is present, the caller owns the light. The first failure names the error. |
| DeviceRoutes.CommandOutcome | src/routes/device.rs:60-73 | A CoAP error passes its text on. A 4.04 answer is "device not found" only where it is checked. Any other answer succeeds. |
| DeviceRoutes.SetOn | src/routes/device.rs:29-74 | A failed check changes nothing and sends nothing. Otherwise it stores the on-state and then sends the requested on-state with the stored brightness and colour, whatever the answer. |
| DeviceRoutes.SetColor | src/routes/device.rs:76-121 | Sends the requested colour, switched on, at the stored brightness, but stores the colour through the brightness update. |
| DeviceRoutes.SetColorIntended | src/routes/device.rs:76-121 | The same command, with the colour stored in `rgb`. |
| DeviceRoutes.SetBrightness | src/routes/device.rs:123-165 | Stores the requested brightness and sends it, switched on, with the stored colour. A 4.04 answer is not checked. |
| DeviceRoutes.NotFoundOnlyReportedByOnAndColor | src/routes/device.rs:158-164 | On a 4.04 answer, setting on-state or colour fails with "device not found", but setting brightness succeeds. |
| DeviceRoutes.SetColorLosesColor | src/routes/device.rs:94-106 | After setting a colour as written, the next switch sends the old colour, with the chosen colour as brightness. |
| DeviceRoutes.SetColorIntendedKeepsColor | src/routes/device.rs:94-106 | With the colour stored, the next switch sends the chosen colour at the old brightness. |
| DeviceRoutes.NeedsCoap | src/routes/device.rs:223 | The CoAP server is contacted exactly for types in which "light" occurs. |
| DeviceRoutes.NewDeviceRow | src/routes/device.rs:187-201 | The device row has the new id, type and name, and the caller as owner. Its internal name is type followed by the id text. It has no nicknames. Its traits are the names of the type's trait rows, one per row and in the order the trait query returns them. |
| DeviceRoutes.RegisterDevice | src/routes/device.rs:167-241 | A bad signature, then an unknown type, are rejected with no change. The CoAP server is contacted exactly for types containing "light". The registration commits exactly when both ids are new and any CoAP answer is 2.04, and then it appends both rows; otherwise nothing changes. |
| DeviceRoutes.RegisteredDeviceIsFound | src/routes/device.rs:211-238 | After a commit both lookups find the new rows, and the owner lookup names the caller. |
| UserRoutes.SessionExpiry | src/routes/user.rs:78 | The expiry is now plus 31,536,000 seconds, wrapped once as the cast does for negative sums. |
| UserRoutes.SessionForIdentifiesUser | src/routes/user.rs:73-79 | The cookie made for user `id` carries `id` as `sub`, printed in decimal, and reads back as `id` until its expiry a year later. |
| UserRoutes.InsertErrorField | src/routes/user.rs:49-66 | The email constraint's message maps to the email field. Any other error maps to "failed to create a user". |
| UserRoutes.Register | src/routes/user.rs:19-101 | Checked in order: mismatched passwords, hash failure, insert fault, taken email, each with no change. Otherwise it works exactly then, stores the hash as the password, and issues the new user's session. |
| UserRoutes.Login | src/routes/user.rs:103-158 | An unknown email is an email error. Success happens exactly when the first matching row's hash parses and verifies, and names that row's id. Both hash failures give the same password error. |
| UserRoutes.GetMe | src/routes/user.rs:167-183 | An error "invalid user_id" exactly when no user has the id. Otherwise id, email and names of a user with the id, without the password. |
| UserRoutes.RegisterSessionIdentifiesUser | src/routes/user.rs:71-90 | The cookie a registration sets decodes to the new user's id until it expires. |
| UserRoutes.RegisterThenLogin | src/routes/user.rs:104-147 | After registering, logging in with the same email and password works when Argon2 accepts its own hash, and the session names the new user. |

## Left out

- oxide_auth's flows (authorization, access token, refresh, resource), `AuthMap`, `TokenMap` and `RandomGenerator`. Their source is not part of this model. The resource flow is a function of the demanded scopes, and each issuer step takes the generator as a possibly failing function of tag and grant.
- `MyState` wires oxide_auth's `TokenMap`, not `JwtIssuer`. The issuer is modelled on its own, as the only token logic whose source is visible.
- The mutexes around the endpoint state. Concurrency is out of scope; each issuer operation is one atomic step.
- Argon2, JWT signing and verification, the device signature check, serde JSON and url-encoding, and HTML templating. They are library code, so they are parameters, or their output is represented structurally (the consent page as its fields and button queries).
- CoAP networking and the tokio runtime (`send_device_command`, `create_coap_device`). Their source is not part of this model; the CoAP result is a parameter.
- Cookie attributes (path, SameSite, secure, http-only), the `logout` route, and the `get_devices` / `get_full_devices` routes. The last two only wrap the table queries in JSON.
- `Utc::now()`: time is the parameter `now` in seconds. The `chrono` duration arithmetic is integer addition.
- `src/db.rs`, `src/main.rs`, `src/schema.rs`, `src/routes.rs` and `src/google_structs.rs`. These are plumbing, a stale schema, superseded handlers and plain declarations; `constants.rs` is not part of this model.
- The row order of queries without `ORDER BY`: every `filter(..).load()` and `.first()` in `src/models/*.rs` is modelled as returning rows in insertion order, and updates keep each row in its place. PostgreSQL promises no order for such queries, and an `UPDATE` writes a new tuple, so "table order" and "first row" in the Model table above describe the model, not a guarantee of the program. The multiset statements (`Rows.FilterCounts` and the lookups built on it) hold for any order. The inserts refuse a taken light id, device id or email. A table built only through them therefore holds at most one row per such key, so the `.first()` lookups by those keys do not depend on the order; the model states this through the inserts' contracts, not as a separate invariant.
- Models.RGB_LIGHT and Models.NON_RGB_LIGHT: the values are placeholders, since `constants.rs` is not part of this model. Contracts rely only on the two differing, and state CoAP contact through the "light" substring test itself.
- UserRoutes.SessionExpiry: does not model the i64 overflow of `now + 31536000`, which needs timestamps about 292 billion years away.
- Issuer.Issue: the `debug_assert!`s on empty tokens are not modelled; they are compiled out of release builds.
- Issuer.Refresh: `Arc::get_mut` failing is not a branch. Once both `assert!`s have passed, the record is referenced only by the two removed entries, so the mutation in place always succeeds.
- `RandomGenerator`'s random bytes are not modelled. Each step takes its own generator function, so every sequence of answers is covered, including a repeated token.
- Database errors other than key conflicts, and `.expect` / `.unwrap` panics on them. Light and device inserts are taken to fail exactly on a taken primary key. A user insert fails on a taken email or on an arbitrary `fault`.
- OAuth.QueryAllow: only "true" and "false" are read as booleans. Other spellings Rocket may accept are not modelled.
- Session.JwtFromId: it has no contract of its own, because the JWT encoder is a parameter. What it promises is stated by `Session.JwtClaimsRoundTrip`.
- The `until` of a grant is an integer. oxide_auth's grant `extensions` are not modelled.

## Findings

| source | as written | input that shows it | evidently intended | confidence | as-written member | corrected member |
|---|---|---|---|---|---|---|
| src/jwt_issuer.rs:49-51 | `access_token` returns "Hewwo" for every grant, so every issue overwrites the one access entry | a new issuer, two issues whose generator gives refresh tokens "first" and "second" | a fresh access token per grant, keeping each refresh entry linked to its own access entry | not executed | Issuer.StubBreaksConsistency | Issuer.IssuePreservesConsistency |
| src/models/light.rs:112-125 | `update_device_color` sets the brightness column to the colour | a light with rgb 16581375 and brightness 255, updated to colour 42 | set the `rgb` column | not executed | LightTable.ColorUpdateLosesColor | LightTable.UpdateDeviceColorIntended |
| src/routes/device.rs:94-100 | `set_color` stores the requested colour with `update_device_brightness` | set_color of colour 42 on an owned light with rgb 16581375, then set_on | store the colour in `rgb`, so a later command sends it | not executed | DeviceRoutes.SetColorLosesColor | DeviceRoutes.SetColorIntendedKeepsColor |

=== FILE: device_routes.dfy ===
/**
 * The decisions of `routes/device.rs`: the checks a light command passes,
 * the `LightState` it sends, how the CoAP answer becomes the JSON reply,
 * and whether a device registration commits. The CoAP exchange (response
 * codes of section 5.9 of RFC 7252: 2.04 Changed, 4.04 Not Found) and the
 * signature check come in as values and functions.
 */
module DeviceRoutes {
  import opened Wrappers
  import opened Numbers
  import opened Models
  import LightTable
  import DeviceTable
  import Rows

  const CHANGED_CODE: string := "2.04"
  const NOT_FOUND_CODE: string := "4.04"

  const NO_DEVICE: string := "Device does not exist"
  const NOT_OWNER: string := "You are not the owner of the device"
  const DEVICE_NOT_FOUND: string := "device not found"
  const INVALID_STATUS: string := "Invalid device status"
  const INVALID_COLOR: string := "Invalid device color"
  const INVALID_BRIGHTNESS: string := "Invalid device brightness"

  /** The result of a CoAP exchange: the library's error text, or the response code. */
  datatype CoapReply = CoapFailed(message: string) | CoapAnswered(code: string)

  /** `{"success":true}` or `{"success":false,"error":…}`. */
  datatype CommandReply = Succeeded | Failed(error: string)

  /** What `send_device_command` transmits to the light. */
  datatype Command = Command(state: LightState, lightId: Uuid)

  /** The lights table after a command request, the command sent if any, and the reply. */
  datatype Handled = Handled(lights: seq<Light>, sent: Option<Command>, reply: CommandReply)

  /** `send_device_command` for one request: the CoAP result of sending a command. */
  type Sender = Command -> CoapReply

  /**
   * The three checks of every command route, in order: the light exists,
   * the request carries the value the route needs, the caller owns the
   * light. The first failing check names the error.
   */
  function CheckCommand(lights: seq<Light>, deviceId: Uuid, userId: int32, present: bool, invalid: string)
    : (r: Result<Light, string>)
    ensures LightTable.GetDeviceById(lights, deviceId).None? ==> r == Err(NO_DEVICE)
    ensures LightTable.GetDeviceById(lights, deviceId).Some? && !present ==> r == Err(invalid)
    ensures (LightTable.GetDeviceById(lights, deviceId).Some? && present
             && LightTable.GetDeviceById(lights, deviceId).value.userId != userId) ==> r == Err(NOT_OWNER)
    ensures r.Ok? ==> r.value == LightTable.GetDeviceById(lights, deviceId).value
                      && r.value.lightId == deviceId && r.value.userId == userId && present
  {
    var device := LightTable.GetDeviceById(lights, deviceId);
    if device.None? then Err(NO_DEVICE)
    else if !present then Err(invalid)
    else if userId != device.value.userId then Err(NOT_OWNER)
    else Ok(device.value)
  }

  /** The checks of `set_on`: the request must carry an on-state. */
  function OnCheck(lights: seq<Light>, data: DeviceData, userId: int32): Result<Light, string> {
    CheckCommand(lights, data.deviceId, userId, data.isOn.Some?, INVALID_STATUS)
  }

  /** The checks of `set_color`: the request must carry a colour. */
  function ColorCheck(lights: seq<Light>, data: DeviceData, userId: int32): Result<Light, string> {
    CheckCommand(lights, data.deviceId, userId, data.color.Some?, INVALID_COLOR)
  }

  /** The checks of `set_brightness`: the request must carry a brightness. */
  function BrightnessCheck(lights: seq<Light>, data: DeviceData, userId: int32): Result<Light, string> {
    CheckCommand(lights, data.deviceId, userId, data.brightness.Some?, INVALID_BRIGHTNESS)
  }

  /**
   * The reply to a sent command: a CoAP error passes its text on; a
   * `4.04` answer is "device not found" where the route checks for it;
   * any other answer is success.
   */
  function CommandOutcome(coap: CoapReply, checksNotFound: bool): (r: CommandReply)
    ensures coap.CoapFailed? ==> r == Failed(coap.message)
    ensures coap.CoapAnswered? ==> (r.Failed? <==> checksNotFound && coap.code == NOT_FOUND_CODE)
    ensures coap.CoapAnswered? && r.Failed? ==> r.error == DEVICE_NOT_FOUND
  {
    match coap
    case CoapFailed(message) => Failed(message)
    case CoapAnswered(code) => if checksNotFound && code == NOT_FOUND_CODE then Failed(DEVICE_NOT_FOUND) else Succeeded
  }

  /**
   * `set_on`: after the checks, stores the requested on-state, then sends
   * it with the stored brightness and colour. The update stays whatever
   * the light answers.
   */
  function SetOn(lights: seq<Light>, data: DeviceData, userId: int32, send: Sender): (r: Handled)
    ensures OnCheck(lights, data, userId).Err? ==>
              r == Handled(lights, None, Failed(OnCheck(lights, data, userId).error))
    ensures r.sent.Some? <==> OnCheck(lights, data, userId).Ok?
    ensures r.sent.Some? ==>
              var device := LightTable.GetDeviceById(lights, data.deviceId).value;
              && r.sent.value == Command(LightState(data.isOn.value, device.brightness, device.rgb), data.deviceId)
              && r.lights == LightTable.UpdateDeviceIsOn(lights, data.deviceId, data.isOn.value).table
              && r.reply == CommandOutcome(send(r.sent.value), true)
  {
    match OnCheck(lights, data, userId)
    case Err(e) => Handled(lights, None, Failed(e))
    case Ok(device) =>
      var state := LightState(data.isOn.value, device.brightness, device.rgb);
      var updated := LightTable.UpdateDeviceIsOn(lights, device.lightId, data.isOn.value).table;
      var command := Command(state, device.lightId);
      Handled(updated, Some(command), CommandOutcome(send(command), true))
  }

  /**
   * `set_color` as written: sends the requested colour, switched on, at the
   * stored brightness, but stores the colour with `update_device_brightness`.
   */
  function SetColor(lights: seq<Light>, data: DeviceData, userId: int32, send: Sender): (r: Handled)
    ensures ColorCheck(lights, data, userId).Err? ==>
              r == Handled(lights, None, Failed(ColorCheck(lights, data, userId).error))
    ensures r.sent.Some? <==> ColorCheck(lights, data, userId).Ok?
    ensures r.sent.Some? ==>
              var device := LightTable.GetDeviceById(lights, data.deviceId).value;
              && r.sent.value == Command(LightState(true, device.brightness, data.color.value), data.deviceId)
              && r.lights == LightTable.UpdateDeviceBrightness(lights, data.deviceId, data.color.value).table
              && r.reply == CommandOutcome(send(r.sent.value), true)
  {
    match ColorCheck(lights, data, userId)
    case Err(e) => Handled(lights, None, Failed(e))
    case Ok(device) =>
      var updated := LightTable.UpdateDeviceBrightness(lights, device.lightId, data.color.value).table;
      var command := Command(LightState(true, device.brightness, data.color.value), device.lightId);
      Handled(updated, Some(command), CommandOutcome(send(command), true))
  }

  /** `set_color` as evidently intended: the same, but the colour is stored in the `rgb` column. */
  function SetColorIntended(lights: seq<Light>, data: DeviceData, userId: int32, send: Sender): (r: Handled)
    ensures ColorCheck(lights, data, userId).Err? ==>
              r == Handled(lights, None, Failed(ColorCheck(lights, data, userId).error))
    ensures r.sent.Some? <==> ColorCheck(lights, data, userId).Ok?
    ensures r.sent.Some? ==>
              var device := LightTable.GetDeviceById(lights, data.deviceId).value;
              && r.sent.value == Command(LightState(true, device.brightness, data.color.value), data.deviceId)
              && r.lights == LightTable.UpdateDeviceColorIntended(lights, data.deviceId, data.color.value).table
              && r.reply == CommandOutcome(send(r.sent.value), true)
  {
    match ColorCheck(lights, data, userId)
    case Err(e) => Handled(lights, None, Failed(e))
    case Ok(device) =>
      var updated := LightTable.UpdateDeviceColorIntended(lights, device.lightId, data.color.value).table;
      var command := Command(LightState(true, device.brightness, data.color.value), device.lightId);
      Handled(updated, Some(command), CommandOutcome(send(command), true))
  }

  /**
   * `set_brightness`: stores the requested brightness and sends it,
   * switched on, with the stored colour. A `4.04` answer is not checked.
   */
  function SetBrightness(lights: seq<Light>, data: DeviceData, userId: int32, send: Sender): (r: Handled)
    ensures BrightnessCheck(lights, data, userId).Err? ==>
              r == Handled(lights, None, Failed(BrightnessCheck(lights, data, userId).error))
    ensures r.sent.Some? <==> BrightnessCheck(lights, data, userId).Ok?
    ensures r.sent.Some? ==>
              var device := LightTable.GetDeviceById(lights, data.deviceId).value;
              && r.sent.value == Command(LightState(true, data.brightness.value, device.rgb), data.deviceId)
              && r.lights == LightTable.UpdateDeviceBrightness(lights, data.deviceId, data.brightness.value).table
              && r.reply == CommandOutcome(send(r.sent.value), false)
  {
    match BrightnessCheck(lights, data, userId)
    case Err(e) => Handled(lights, None, Failed(e))
    case Ok(device) =>
      var updated := LightTable.UpdateDeviceBrightness(lights, device.lightId, data.brightness.value).table;
      var command := Command(LightState(true, data.brightness.value, device.rgb), device.lightId);
      Handled(updated, Some(command), CommandOutcome(send(command), false))
  }

  /** Only `set_brightness` reports success on a `4.04` answer. */
  lemma NotFoundOnlyReportedByOnAndColor(lights: seq<Light>, data: DeviceData, userId: int32, send: Sender)
    requires forall c: Command :: send(c) == CoapAnswered(NOT_FOUND_CODE)
    ensures SetOn(lights, data, userId, send).sent.Some? ==> SetOn(lights, data, userId, send).reply == Failed(DEVICE_NOT_FOUND)
    ensures SetColor(lights, data, userId, send).sent.Some? ==> SetColor(lights, data, userId, send).reply == Failed(DEVICE_NOT_FOUND)
    ensures SetBrightness(lights, data, userId, send).sent.Some? ==> SetBrightness(lights, data, userId, send).reply == Succeeded
  {
  }

  /**
   * With `set_color` as written, the colour the owner chose is lost: the
   * next `set_on` sends the old colour, and the chosen colour as brightness.
   */
  lemma SetColorLosesColor(lights: seq<Light>, id: Uuid, userId: int32, color: int32, on: bool, send: Sender)
    requires LightTable.GetDeviceById(lights, id).Some? && LightTable.GetDeviceById(lights, id).value.userId == userId
    requires LightTable.GetDeviceById(lights, id).value.rgb != color
    ensures var before := LightTable.GetDeviceById(lights, id).value;
            var after := SetColor(lights, DeviceData(id, None, Some(color), None), userId, send).lights;
            var next := SetOn(after, DeviceData(id, None, None, Some(on)), userId, send).sent;
            && next == Some(Command(LightState(on, color, before.rgb), id))
            && next.value.state.color != color
  {
    var after := SetColor(lights, DeviceData(id, None, Some(color), None), userId, send).lights;
    LightTable.LookupAfterUpdate(lights, after, id);
  }

  /** With the colour stored in `rgb`, the next `set_on` sends the chosen colour at the old brightness. */
  lemma SetColorIntendedKeepsColor(lights: seq<Light>, id: Uuid, userId: int32, color: int32, on: bool, send: Sender)
    requires LightTable.GetDeviceById(lights, id).Some? && LightTable.GetDeviceById(lights, id).value.userId == userId
    ensures var before := LightTable.GetDeviceById(lights, id).value;
            var after := SetColorIntended(lights, DeviceData(id, None, Some(color), None), userId, send).lights;
            SetOn(after, DeviceData(id, None, None, Some(on)), userId, send).sent
              == Some(Command(LightState(on, before.brightness, color), id))
  {
    var before := LightTable.GetDeviceById(lights, id).value;
    var handled := SetColorIntended(lights, DeviceData(id, None, Some(color), None), userId, send);
    assert handled.sent.Some?;
    var after := handled.lights;
    assert after == LightTable.UpdateDeviceColorIntended(lights, id, color).table;
    LightTable.LookupAfterUpdate(lights, after, id);
    var row := LightTable.GetDeviceById(after, id).value;
    assert row.userId == userId && row.brightness == before.brightness && row.rgb == color;
  }

  /** `verify_secret`: whether `secret` is a valid signature of the JSON form of the device's id and type. */
  type Verifier = (string, DeviceSignature) -> bool

  /** The JSON reply: the two early errors, or `{"status":200,"result":…}` telling whether the transaction committed. */
  datatype RegisterReply = AuthenticationFailed | InvalidType | Completed(committed: bool)

  /** Both tables after a registration, whether the CoAP server was asked to create the device, and the reply. */
  datatype Registration = Registration(lights: seq<Light>, devices: seq<Device>, coapContacted: bool, reply: RegisterReply)

  /** The `devices` row a registration builds: internal name is type and id text, no nicknames, the type's traits. */
  function NewDeviceRow(nd: NewDevice, userId: int32, traitRows: seq<Trait>): (d: Device)
    ensures d.id == nd.id && d.userId == userId && d.deviceType == nd.deviceType && d.name == nd.name
    ensures d.internalName == nd.deviceType + UuidToString(nd.id)
    ensures d.nicknames == []
    ensures forall x :: x in d.traits <==> exists t :: t in traitRows && t.deviceType == nd.deviceType && x == Some(t.name)
    ensures var own := LightTable.GetTraitsForDeviceType(traitRows, nd.deviceType);
            |d.traits| == |own| && forall i :: 0 <= i < |own| ==> d.traits[i] == Some(own[i].name)
  {
    var own := LightTable.GetTraitsForDeviceType(traitRows, nd.deviceType);
    var traits := seq(|own|, i requires 0 <= i < |own| => Some(own[i].name));
    assert forall x :: x in traits <==> exists t :: t in own && x == Some(t.name) by {
      forall x ensures x in traits <==> exists t :: t in own && x == Some(t.name) {
        if x in traits {
          var i :| 0 <= i < |traits| && traits[i] == x;
          assert own[i] in own;
        }
        if exists t :: t in own && x == Some(t.name) {
          var t :| t in own && x == Some(t.name);
          var i :| 0 <= i < |own| && own[i] == t;
          assert traits[i] == x;
        }
      }
    }
    Device(nd.id, nd.deviceType, userId, nd.deviceType + UuidToString(nd.id), nd.name, [], traits)
  }

  /** Whether the registration contacts the CoAP server: the type's text contains "light". */
  predicate NeedsCoap(deviceType: string): (b: bool)
    ensures b <==> exists i :: 0 <= i <= |deviceType| - 5 && OccursAt(deviceType, "light", i)
  {
    Contains(deviceType, "light")
  }

  /**
   * `register_device`: the signature check comes first, then the type;
   * inside the transaction the light row is inserted, then (only if that
   * worked) the device row, then a light-like type is created on the CoAP
   * server. The transaction commits when both inserts worked and the CoAP
   * server answered `2.04`; otherwise neither table changes. `coap` is the
   * server's answer when asked.
   */
  function RegisterDevice(lights: seq<Light>, devices: seq<Device>, traitRows: seq<Trait>, nd: NewDevice,
                          userId: int32, verify: Verifier, coap: CoapReply): (r: Registration)
    ensures !verify(nd.secret, DeviceSignature(nd.id, nd.deviceType)) ==>
              r == Registration(lights, devices, false, AuthenticationFailed)
    ensures verify(nd.secret, DeviceSignature(nd.id, nd.deviceType)) && !IsLightType(nd.deviceType) ==>
              r == Registration(lights, devices, false, InvalidType)
    ensures r.reply.Completed? <==> verify(nd.secret, DeviceSignature(nd.id, nd.deviceType)) && IsLightType(nd.deviceType)
    ensures r.reply.Completed? ==> (r.coapContacted <==> NeedsCoap(nd.deviceType))
    ensures r.reply == Completed(true) <==>
              && verify(nd.secret, DeviceSignature(nd.id, nd.deviceType)) && IsLightType(nd.deviceType)
              && !LightTable.HasLight(lights, nd.id) && !DeviceTable.HasDevice(devices, nd.id)
              && (NeedsCoap(nd.deviceType) ==> coap == CoapAnswered(CHANGED_CODE))
    ensures r.reply == Completed(true) ==>
              && r.lights == lights + [LightNew(nd.id, nd.secret, userId)]
              && r.devices == devices + [NewDeviceRow(nd, userId, traitRows)]
    ensures r.reply != Completed(true) ==> r.lights == lights && r.devices == devices
  {
    if !verify(nd.secret, DeviceSignature(nd.id, nd.deviceType)) then
      Registration(lights, devices, false, AuthenticationFailed)
    else
      var device := NewDeviceRow(nd, userId, traitRows);
      if !IsLightType(device.deviceType) then
        Registration(lights, devices, false, InvalidType)
      else
        var lightInsert := LightTable.InsertDevice(lights, device.id, nd.secret, device.userId);
        var deviceInsert := if lightInsert.1 then DeviceTable.InsertDevice(devices, device) else (devices, false);
        var contacted := NeedsCoap(device.deviceType);
        var coapChanged := !contacted || (coap.CoapAnswered? && coap.code == CHANGED_CODE);
        if coapChanged && deviceInsert.1 then
          Registration(lightInsert.0, deviceInsert.0, contacted, Completed(true))
        else
          Registration(lights, devices, contacted, Completed(false))
  }

  /**
   * A committed registration is visible to both lookups: the light is the
   * new owner's, on, at full brightness and default colour, and the device
   * row is the one built, owned by the registering user.
   */
  lemma RegisteredDeviceIsFound(lights: seq<Light>, devices: seq<Device>, traitRows: seq<Trait>, nd: NewDevice,
                                userId: int32, verify: Verifier, coap: CoapReply)
    ensures var r := RegisterDevice(lights, devices, traitRows, nd, userId, verify, coap);
            r.reply == Completed(true) ==>
            && LightTable.GetDeviceById(r.lights, nd.id) == Some(LightNew(nd.id, nd.secret, userId))
            && DeviceTable.GetDeviceById(r.devices, nd.id) == Some(NewDeviceRow(nd, userId, traitRows))
            && DeviceTable.GetDeviceOwner(r.devices, nd.id) == Some(userId)
  {
    if RegisterDevice(lights, devices, traitRows, nd, userId, verify, coap).reply == Completed(true) {
      Rows.FirstOfAppended(lights, LightNew(nd.id, nd.secret, userId), (l: Light) => l.lightId == nd.id);
      Rows.FirstOfAppended(devices, NewDeviceRow(nd, userId, traitRows), (d: Device) => d.id == nd.id);
    }
  }
}

=== FILE: device_table.dfy ===
/** The queries of `models/device.rs` (and their copy in `models.rs`) over an in-memory `devices` table. */
module DeviceTable {
  import opened Wrappers
  import opened Numbers
  import opened Models
  import Rows

  predicate HasDevice(t: seq<Device>, id: Uuid) {
    exists i :: 0 <= i < |t| && t[i].id == id
  }

  function DeviceKey(d: Device): int {
    d.id
  }

  /** `get_all_devices`: every row, ordered by id descending. */
  function GetAllDevices(t: seq<Device>): (r: seq<Device>)
    ensures multiset(r) == multiset(t)
    ensures forall i, j :: 0 <= i < j < |r| ==> r[i].id >= r[j].id
  {
    Rows.SortDesc(t, DeviceKey)
  }

  /** `insert_device`: adds the row and reports success; `id` is the table's key, so a taken id fails and changes nothing. */
  function InsertDevice(t: seq<Device>, d: Device): (r: (seq<Device>, bool))
    ensures r.1 <==> !HasDevice(t, d.id)
    ensures r.1 ==> r.0 == t + [d]
    ensures !r.1 ==> r.0 == t
  {
    if HasDevice(t, d.id) then (t, false) else (t + [d], true)
  }

  /** `get_devices_by_user`: exactly the rows of this user, in table order. */
  function GetDevicesByUser(t: seq<Device>, userId: int32): (r: seq<Device>)
    ensures forall d :: d in r <==> d in t && d.userId == userId
    ensures forall d {:trigger multiset(r)[d]} :: multiset(r)[d] == (if d.userId == userId then multiset(t)[d] else 0)
    ensures |r| <= |t|
  {
    var mine := (d: Device) => d.userId == userId;
    Rows.FilterCounts(t, mine);
    Rows.Filter(t, mine)
  }

  /** `get_device_by_id`: the first row with this id, `None` when there is none. */
  function GetDeviceById(t: seq<Device>, id: Uuid): (r: Option<Device>)
    ensures r.None? <==> !HasDevice(t, id)
    ensures r.Some? ==> exists i :: 0 <= i < |t| && t[i] == r.value && r.value.id == id
                                    && forall j :: 0 <= j < i ==> t[j].id != id
  {
    Rows.First(t, (d: Device) => d.id == id)
  }

  /** `get_device_owner`: the owner of the device `get_device_by_id` finds, `None` when it finds none. */
  function GetDeviceOwner(t: seq<Device>, id: Uuid): (r: Option<int32>)
    ensures r.None? <==> GetDeviceById(t, id).None?
    ensures r.Some? ==> r.value == GetDeviceById(t, id).value.userId
    ensures r.Some? ==> exists i :: 0 <= i < |t| && t[i].id == id && t[i].userId == r.value
  {
    var rows := Rows.Filter(t, (d: Device) => d.id == id);
    if |rows| == 0 then None else Some(rows[0].userId)
  }
}

=== FILE: google.dfy ===
/**
 * The Google Smart Home fulfilment endpoint of `routes/google.rs`: after the
 * resource flow admits the bearer token, a SYNC intent lists the caller's
 * lights in Google's device format; any other intent gets the
 * `notSupported` error payload.
 */
module Google {
  import opened Wrappers
  import opened Numbers
  import opened Models
  import opened OAuth
  import DeviceTable
  import Rows

  const LIGHT_DEVICE_TYPE: string := "action.devices.types.LIGHT"
  const SYNC_INTENT: string := "action.devices.SYNC"

  datatype NameStruct = NameStruct(defaultNames: seq<string>, name: string, nicknames: seq<string>)

  datatype DeviceAttributes = DeviceAttributes(colorModel: Option<string>,
                                               colorTemperatureRange: Option<map<string, int32>>)

  datatype GoogleDevice = GoogleDevice(id: Uuid, deviceType: string, traits: seq<string>, name: NameStruct,
                                       willReportState: bool, attributes: DeviceAttributes)

  /** The payload fields; each absent field is left out of the JSON. */
  datatype SyncPayload = SyncPayload(agentUserId: Option<string>, devices: Option<seq<GoogleDevice>>,
                                     errorCode: Option<string>, status: Option<string>)

  datatype GoogleResponse = GoogleResponse(requestId: string, payload: SyncPayload)

  /** One input of a request; only its intent is read. */
  datatype GoogleInput = GoogleInput(intent: string)

  datatype GoogleRequest = GoogleRequest(requestId: string, inputs: seq<GoogleInput>)

  /**
   * The endpoint's outcome: the JSON answer; the empty 401 page when the
   * flow challenges; the flow's own error; or a panic, from an `unwrap` on
   * an owner id that is not an i32 or on a request without inputs.
   */
  datatype Fulfilment = Answer(response: GoogleResponse) | Unauthorized | Failure | Panic

  /** The traits a device row has set, in order, the unset ones dropped. */
  function PresentTraits(ts: seq<Option<string>>): (r: seq<string>)
    ensures |r| <= |ts|
    ensures forall x :: x in r <==> Some(x) in ts
  {
    if |ts| == 0 then []
    else
      var rest := PresentTraits(ts[1..]);
      assert forall x :: Some(x) in ts <==> ts[0] == Some(x) || Some(x) in ts[1..];
      if ts[0].Some? then [ts[0].value] + rest else rest
  }

  predicate IsSet(o: Option<string>) {
    o.Some?
  }

  /** The contents of a sequence of set options, in order. */
  function Values(os: seq<Option<string>>): (r: seq<string>)
    requires forall i :: 0 <= i < |os| ==> os[i].Some?
    ensures |r| == |os| && forall i :: 0 <= i < |r| ==> os[i] == Some(r[i])
  {
    if |os| == 0 then [] else [os[0].value] + Values(os[1..])
  }

  /** The present traits are the set entries, in table order and with their repetitions. */
  lemma {:induction false} PresentTraitsInOrder(ts: seq<Option<string>>)
    ensures PresentTraits(ts) == Values(Rows.Filter(ts, IsSet))
  {
    if |ts| > 0 {
      PresentTraitsInOrder(ts[1..]);
      var tail := Rows.Filter(ts[1..], IsSet);
      if IsSet(ts[0]) {
        assert Rows.Filter(ts, IsSet) == [ts[0]] + tail;
        assert ([ts[0]] + tail)[1..] == tail;
      } else {
        assert Rows.Filter(ts, IsSet) == tail;
      }
    }
  }

  /**
   * The `filter_map` closure of `handleSync`: both light types become a
   * Google LIGHT that does not report state, named by its internal name,
   * with colour model "rgb" for an RGB light only; other types are skipped.
   */
  function ToGoogleDevice(d: Device): (r: Option<GoogleDevice>)
    ensures r.Some? <==> IsLightType(d.deviceType)
    ensures r.Some? ==> r.value.id == d.id && r.value.deviceType == LIGHT_DEVICE_TYPE && !r.value.willReportState
    ensures r.Some? ==> r.value.traits == PresentTraits(d.traits)
    ensures r.Some? ==> r.value.name == NameStruct([d.internalName], d.name, [])
    ensures r.Some? ==> (r.value.attributes.colorModel == Some("rgb") <==> d.deviceType == RGB_LIGHT)
    ensures r.Some? ==> r.value.attributes.colorModel.None? == (d.deviceType == NON_RGB_LIGHT)
    ensures r.Some? ==> r.value.attributes.colorTemperatureRange.None?
  {
    var traits := PresentTraits(d.traits);
    var name := NameStruct([d.internalName], d.name, []);
    if d.deviceType == NON_RGB_LIGHT then
      Some(GoogleDevice(d.id, LIGHT_DEVICE_TYPE, traits, name, false, DeviceAttributes(None, None)))
    else if d.deviceType == RGB_LIGHT then
      Some(GoogleDevice(d.id, LIGHT_DEVICE_TYPE, traits, name, false, DeviceAttributes(Some("rgb"), None)))
    else None
  }

  /** The whole `filter_map`: the Google form of every light row, in order. */
  function SyncDevices(ds: seq<Device>): (r: seq<GoogleDevice>)
    ensures |r| <= |ds|
    ensures forall i :: 0 <= i < |r| ==> r[i].deviceType == LIGHT_DEVICE_TYPE && !r[i].willReportState
    ensures forall i :: 0 <= i < |r| ==> exists j :: 0 <= j < |ds| && ToGoogleDevice(ds[j]) == Some(r[i])
  {
    if |ds| == 0 then []
    else
      var rest := SyncDevices(ds[1..]);
      assert forall i :: 0 <= i < |rest| ==> exists j :: 0 <= j < |ds| && ToGoogleDevice(ds[j]) == Some(rest[i]) by {
        forall i | 0 <= i < |rest|
          ensures exists j :: 0 <= j < |ds| && ToGoogleDevice(ds[j]) == Some(rest[i])
        {
          var j :| 0 <= j < |ds[1..]| && ToGoogleDevice(ds[1..][j]) == Some(rest[i]);
          assert ds[j + 1] == ds[1..][j];
        }
      }
      match ToGoogleDevice(ds[0])
      case Some(g) => [g] + rest
      case None => rest
  }

  function Translate(d: Device): GoogleDevice
    requires IsLightType(d.deviceType)
  {
    ToGoogleDevice(d).value
  }

  /** The translation of each device of a list of light rows. */
  function TranslateAll(ds: seq<Device>): (r: seq<GoogleDevice>)
    requires forall i :: 0 <= i < |ds| ==> IsLightType(ds[i].deviceType)
    ensures |r| == |ds|
    ensures forall i :: 0 <= i < |r| ==> ToGoogleDevice(ds[i]) == Some(r[i])
  {
    if |ds| == 0 then [] else [Translate(ds[0])] + TranslateAll(ds[1..])
  }

  function IsLight(d: Device): bool {
    IsLightType(d.deviceType)
  }

  /** Reference reading of the `filter_map`: keep the light rows, then translate each one. */
  lemma {:induction false} SyncDevicesIsTranslatedLights(ds: seq<Device>)
    ensures SyncDevices(ds) == TranslateAll(Rows.Filter(ds, IsLight))
  {
    if |ds| > 0 {
      SyncDevicesIsTranslatedLights(ds[1..]);
      var tail := Rows.Filter(ds[1..], IsLight);
      if IsLight(ds[0]) {
        assert Rows.Filter(ds, IsLight) == [ds[0]] + tail;
        assert ([ds[0]] + tail)[1..] == tail;
      } else {
        assert Rows.Filter(ds, IsLight) == tail;
      }
    }
  }

  /**
   * `handleSync`: the user's id in decimal as `agentUserId` and the Google
   * form of every light row of that user, in table order; no error fields.
   */
  function HandleSync(requestId: string, userId: int32, devices: seq<Device>): (r: GoogleResponse)
    ensures r.requestId == requestId
    ensures r.payload.agentUserId == Some(I32ToString(userId))
    ensures r.payload.agentUserId.Some? && ParseI32(r.payload.agentUserId.value) == Some(userId)
    ensures r.payload.devices.Some? && r.payload.errorCode.None? && r.payload.status.None?
    ensures forall i :: 0 <= i < |r.payload.devices.value| ==>
              exists d :: d in devices && d.userId == userId && ToGoogleDevice(d) == Some(r.payload.devices.value[i])
    ensures r.payload.devices.value == TranslateAll(Rows.Filter(DeviceTable.GetDevicesByUser(devices, userId), IsLight))
  {
    var listed := SyncDevices(DeviceTable.GetDevicesByUser(devices, userId));
    UserSyncListing(devices, userId);
    I32RoundTrip(userId);
    GoogleResponse(requestId, SyncPayload(Some(I32ToString(userId)), Some(listed), None, None))
  }

  /** The listing of a user's rows: each entry comes from a row of that user, and it is the translation of the light rows. */
  lemma UserSyncListing(devices: seq<Device>, userId: int32)
    ensures var mine := DeviceTable.GetDevicesByUser(devices, userId);
            SyncDevices(mine) == TranslateAll(Rows.Filter(mine, IsLight))
    ensures var listed := SyncDevices(DeviceTable.GetDevicesByUser(devices, userId));
            forall i :: 0 <= i < |listed| ==>
              exists d :: d in devices && d.userId == userId && ToGoogleDevice(d) == Some(listed[i])
  {
    var mine := DeviceTable.GetDevicesByUser(devices, userId);
    var listed := SyncDevices(mine);
    SyncDevicesIsTranslatedLights(mine);
    forall i | 0 <= i < |listed|
      ensures exists d :: d in devices && d.userId == userId && ToGoogleDevice(d) == Some(listed[i])
    {
      var j :| 0 <= j < |mine| && ToGoogleDevice(mine[j]) == Some(listed[i]);
      assert mine[j] in mine;
    }
  }

  /** The answer to any intent but SYNC. */
  function NotSupported(requestId: string): (r: GoogleResponse)
    ensures r.requestId == requestId
    ensures r.payload == SyncPayload(None, None, Some("notSupported"), Some("ERROR"))
  {
    GoogleResponse(requestId, SyncPayload(None, None, Some("notSupported"), Some("ERROR")))
  }

  /**
   * `fullfilment`: the resource flow with scope `default-scope` decides
   * admission; an admitted owner id must parse as an i32 and the request
   * must have an input, or the handler panics; the first input's intent
   * picks SYNC or the `notSupported` payload.
   */
  function Fullfilment(flow: ResourceFlow, request: GoogleRequest, devices: seq<Device>): (r: Fulfilment)
    ensures r.Unauthorized? <==> flow({DEFAULT_SCOPE}).Challenged?
    ensures r.Failure? <==> flow({DEFAULT_SCOPE}).FlowFailed?
    ensures r.Answer? <==> flow({DEFAULT_SCOPE}).Permitted? && ParseI32(flow({DEFAULT_SCOPE}).grant.ownerId).Some?
                           && |request.inputs| > 0
    ensures r.Answer? ==> r.response.requestId == request.requestId
    ensures r.Answer? && request.inputs[0].intent == SYNC_INTENT ==>
              r.response == HandleSync(request.requestId, ParseI32(flow({DEFAULT_SCOPE}).grant.ownerId).value, devices)
    ensures r.Answer? && request.inputs[0].intent != SYNC_INTENT ==> r.response == NotSupported(request.requestId)
  {
    match flow(RequiredScopes())
    case Permitted(grant) =>
      var userId := ParseI32(grant.ownerId);
      if userId.None? then Panic
      else if |request.inputs| == 0 then Panic
      else if request.inputs[0].intent == SYNC_INTENT then Answer(HandleSync(request.requestId, userId.value, devices))
      else Answer(NotSupported(request.requestId))
    case Challenged => Unauthorized
    case FlowFailed => Failure
  }

  /**
   * A grant whose owner is "-1" (the consent given without a session) is
   * served: SYNC answers as user -1, listing nothing while no device row
   * belongs to user -1.
   */
  lemma AnonymousGrantSyncsNothing(flow: ResourceFlow, request: GoogleRequest, devices: seq<Device>)
    requires flow({DEFAULT_SCOPE}).Permitted? && flow({DEFAULT_SCOPE}).grant.ownerId == NO_OWNER
    requires |request.inputs| > 0 && request.inputs[0].intent == SYNC_INTENT
    requires forall i :: 0 <= i < |devices| ==> devices[i].userId != -1
    ensures Fullfilment(flow, request, devices).Answer?
    ensures Fullfilment(flow, request, devices).response.payload.agentUserId == Some("-1")
    ensures Fullfilment(flow, request, devices).response.payload.devices == Some([])
  {
    assert DigitChar(1) == '1';
    assert I32ToString(-1) == "-" + NatToDecimal(1) == "-1";
    I32RoundTrip(-1);
  }
}

=== FILE: issuer.dfy ===
/**
 * `JwtIssuer`, the backend's own implementation of oxide_auth's `Issuer`: an
 * access index and a refresh index onto shared token records, a usage counter
 * fed to the token generator, and an optional validity duration. Refresh
 * tokens are rotated on use, as section 6 of RFC 6749 permits.
 *
 * Each operation is one atomic step from issuer state to issuer state (the
 * surrounding mutex is not modelled). The generator is a parameter, as is the
 * access-token string each step stores: the source's `access_token` is a stub
 * returning "Hewwo" (`AccessTokenStub`, used by `IssueAsWritten`), and the
 * lemmas below show what a fresh access token buys and what the stub breaks.
 *
 * The source compares `Arc`s by pointer. A record carries the number of its
 * allocation, so `Arc::ptr_eq` on records compares those numbers. A refresh
 * entry's key is an `Arc` too: `HashMap::insert` onto a key already present
 * replaces the record but keeps the old key, which is then not the `Arc` the
 * new record names. The issuer remembers those keys in `keptKeys`.
 */
module Issuer {
  import opened Wrappers
  import opened Numbers

  /** oxide_auth's `Grant`: who authorised which client for what, and until when (`extensions` are not modelled). */
  datatype Grant = Grant(ownerId: string, clientId: string, scope: set<string>, redirectUri: string, until: int)

  /** The record both indices point at; `id` is its allocation. */
  datatype Token = Token(id: nat, access: string, refresh: Option<string>, grant: Grant)

  /**
   * The issuer's fields, plus `allocations`, the number of records allocated so
   * far, and `keptKeys`, the refresh keys whose stored `Arc` came from an
   * earlier entry.
   */
  datatype JwtIssuer = JwtIssuer(duration: Option<int>, usage: u64, allocations: nat,
                                 access: map<string, Token>, refresh: map<string, Token>, keptKeys: set<string>)

  /**
   * One call of the issuer's generator, `tag(counter, grant)`; `None` is its
   * `Err(())`. The source's `RandomGenerator` draws fresh random bytes on
   * every call, so each step takes its own generator and any sequence of
   * answers is covered.
   */
  type Generator = (u64, Grant) -> Option<string>

  /** `IssuedToken` / `RefreshedToken` (the token type is always `Bearer`). */
  datatype IssuedToken = IssuedToken(token: string, refresh: Option<string>, until: int)

  /** What a step answers: tokens, `Err(())`, or a failed `assert!` (the issuer is left as it was at the panic). */
  datatype Reply = Issued(issued: IssuedToken) | Refused | Panicked

  datatype Step = Step(issuer: JwtIssuer, reply: Reply)

  /** `JwtIssuer::new`: no duration policy, counter at zero, both indices empty. */
  function New(): (s: JwtIssuer)
    ensures Consistent(s)
    ensures s.access == map[] && s.refresh == map[] && s.usage == 0 && s.duration.None?
  {
    JwtIssuer(None, 0, 0, map[], map[], {})
  }

  /** `access_token` as written: the same string for every grant. */
  function AccessTokenStub(g: Grant): string {
    "Hewwo"
  }

  /** `set_duration`: with a policy the grant is valid until `now + duration`; without one it is unchanged. */
  function SetDuration(duration: Option<int>, g: Grant, now: int): (r: Grant)
    ensures duration.Some? ==> r.until == now + duration.value
    ensures duration.None? ==> r == g
    ensures r.(until := g.until) == g
  {
    if duration.Some? then g.(until := now + duration.value) else g
  }

  /** `recover_token`: the grant stored under an access token. */
  function RecoverToken(s: JwtIssuer, token: string): (r: Option<Grant>)
    ensures r.Some? <==> token in s.access
    ensures r.Some? ==> r.value == s.access[token].grant
  {
    if token in s.access then Some(s.access[token].grant) else None
  }

  /** `recover_refresh`: the grant stored under a refresh token. */
  function RecoverRefresh(s: JwtIssuer, token: string): (r: Option<Grant>)
    ensures r.Some? <==> token in s.refresh
    ensures r.Some? ==> r.value == s.refresh[token].grant
  {
    if token in s.refresh then Some(s.refresh[token].grant) else None
  }

  /**
   * The record under refresh key `k` names `k` as its refresh token through
   * the very key `Arc` stored, and is the record its access token indexes.
   */
  predicate Linked(s: JwtIssuer, k: string)
    requires k in s.refresh
  {
    var t := s.refresh[k];
    k !in s.keptKeys && t.refresh == Some(k) && t.access in s.access && s.access[t.access] == t
  }

  /**
   * The index invariant: each access entry is keyed by its record's access
   * token, and each refresh entry is linked. (A failed refresh drops a
   * refresh entry and leaves its access entry, so access entries need not
   * have a live refresh entry.)
   */
  predicate Consistent(s: JwtIssuer) {
    && (forall a :: a in s.access ==> s.access[a].access == a)
    && (forall k :: k in s.refresh ==> Linked(s, k))
  }

  /** Whether the first `assert!` of `refresh` fails for key `k`: its record does not name it through the stored key. */
  predicate KeyMismatch(s: JwtIssuer, k: string)
    requires k in s.refresh
  {
    k in s.keptKeys || s.refresh[k].refresh != Some(k)
  }

  /** The issuer once `remove_entry` has taken out refresh key `k`. */
  function Removed(s: JwtIssuer, k: string): (r: JwtIssuer)
    ensures r.refresh.Keys == s.refresh.Keys - {k} && k !in r.keptKeys
    ensures r.(refresh := s.refresh, keptKeys := s.keptKeys) == s
  {
    s.(refresh := s.refresh - {k}, keptKeys := s.keptKeys - {k})
  }

  /**
   * `issue`: applies the duration policy, asks the generator for a refresh
   * token tagged `usage + 1`, stores one new record under both tokens and
   * advances the counter. A generator failure changes nothing.
   */
  function Issue(s: JwtIssuer, g: Grant, now: int, access: string, tag: Generator): (r: Step)
    ensures !r.reply.Panicked?
    ensures r.reply.Refused? <==> tag(WrappingInc(s.usage), SetDuration(s.duration, g, now)).None?
    ensures r.reply.Refused? ==> r.issuer == s
    ensures r.reply.Issued? ==>
      var g' := SetDuration(s.duration, g, now);
      && r.issuer.usage == WrappingInc(s.usage)
      && r.issuer.duration == s.duration
      && r.reply.issued.token == access
      && r.reply.issued.refresh == tag(WrappingInc(s.usage), g')
      && r.reply.issued.refresh.Some?
      && r.reply.issued.until == g'.until
      && RecoverToken(r.issuer, access) == Some(g')
      && RecoverRefresh(r.issuer, r.reply.issued.refresh.value) == Some(g')
    ensures r.reply.Issued? ==>
      && (forall a :: a != access ==> RecoverToken(r.issuer, a) == RecoverToken(s, a))
      && (forall k :: k != r.reply.issued.refresh.value ==> RecoverRefresh(r.issuer, k) == RecoverRefresh(s, k))
    ensures r.reply.Issued? ==>
      var k := r.reply.issued.refresh.value;
      && r.issuer.access[access].id == s.allocations && r.issuer.allocations == s.allocations + 1
      && (k in r.issuer.keptKeys <==> k in s.refresh)
      && (forall k' :: k' != k ==> (k' in r.issuer.keptKeys <==> k' in s.keptKeys))
  {
    var g' := SetDuration(s.duration, g, now);
    var next := WrappingInc(s.usage);
    match tag(next, g')
    case None => Step(s, Refused)
    case Some(refresh) =>
      var t := Token(s.allocations, access, Some(refresh), g');
      var kept := if refresh in s.refresh then s.keptKeys + {refresh} else s.keptKeys - {refresh};
      Step(s.(usage := next, allocations := s.allocations + 1, access := s.access[access := t],
              refresh := s.refresh[refresh := t], keptKeys := kept),
           Issued(IssuedToken(access, Some(refresh), g'.until)))
  }

  /** `issue` exactly as written, with the stub access token. */
  function IssueAsWritten(s: JwtIssuer, g: Grant, now: int, tag: Generator): (r: Step)
    ensures r.reply.Issued? ==> r.reply.issued.token == "Hewwo" && "Hewwo" in r.issuer.access
  {
    Issue(s, g, now, AccessTokenStub(g), tag)
  }

  /**
   * `refresh`: removes the refresh entry (an unknown key is refused and
   * changes nothing), asserts the record names that key, applies the duration
   * policy to the incoming grant, asks the generator for a refresh token
   * tagged `usage`, removes the old access entry asserting it was this record,
   * and stores the updated record, the same allocation, under the two new
   * tokens. The counter ends one past the tag. A generator failure leaves the
   * refresh entry removed.
   */
  function Refresh(s: JwtIssuer, key: string, g: Grant, now: int, access: string, tag: Generator): (r: Step)
    ensures key !in s.refresh ==> r == Step(s, Refused)
    ensures key in s.refresh && KeyMismatch(s, key) ==> r == Step(Removed(s, key), Panicked)
    ensures Consistent(s) ==> !r.reply.Panicked?
    ensures r.reply.Refused? <==>
      key !in s.refresh || (!KeyMismatch(s, key) && tag(s.usage, SetDuration(s.duration, g, now)).None?)
    ensures key in s.refresh && !KeyMismatch(s, key) && tag(s.usage, SetDuration(s.duration, g, now)).None? ==>
      r == Step(Removed(s, key), Refused)
    ensures r.reply.Issued? ==>
      var g' := SetDuration(s.duration, g, now);
      && key in s.refresh
      && r.issuer.usage == WrappingInc(s.usage)
      && r.issuer.duration == s.duration
      && r.reply.issued.token == access
      && r.reply.issued.refresh == tag(s.usage, g')
      && r.reply.issued.refresh.Some?
      && r.reply.issued.until == g'.until
      && RecoverToken(r.issuer, access) == Some(g')
      && RecoverRefresh(r.issuer, r.reply.issued.refresh.value) == Some(g')
    ensures r.reply.Issued? ==>
      var k := r.reply.issued.refresh.value;
      && r.issuer.access[access].id == s.refresh[key].id && r.issuer.allocations == s.allocations
      && (k in r.issuer.keptKeys <==> k in s.refresh && k != key)
  {
    if key !in s.refresh then Step(s, Refused)
    else
      var t := s.refresh[key];
      var removed := Removed(s, key);
      if KeyMismatch(s, key) then Step(removed, Panicked)
      else
        var g' := SetDuration(s.duration, g, now);
        match tag(s.usage, g')
        case None => Step(removed, Refused)
        case Some(newRefresh) =>
          if t.access in s.access && s.access[t.access].id != t.id then
            Step(removed.(access := s.access - {t.access}), Panicked)
          else
            var t' := Token(t.id, access, Some(newRefresh), g');
            var kept := if newRefresh in removed.refresh then removed.keptKeys + {newRefresh}
                        else removed.keptKeys - {newRefresh};
            Step(JwtIssuer(s.duration, WrappingInc(s.usage), s.allocations,
                           (s.access - {t.access})[access := t'],
                           removed.refresh[newRefresh := t'], kept),
                 Issued(IssuedToken(access, Some(newRefresh), g'.until)))
  }

  // ------------------------------------------------------------------ invariant

  /**
   * An issue with an access token not already in use, whose generator does
   * not hand back a refresh token already in use, keeps the indices
   * consistent.
   */
  lemma IssuePreservesConsistency(s: JwtIssuer, g: Grant, now: int, access: string, tag: Generator)
    requires Consistent(s)
    requires access !in s.access
    requires var t := tag(WrappingInc(s.usage), SetDuration(s.duration, g, now)); t.Some? ==> t.value !in s.refresh
    ensures Consistent(Issue(s, g, now, access, tag).issuer)
  {
    var r := Issue(s, g, now, access, tag);
    if r.reply.Issued? {
      var s' := r.issuer;
      forall k | k in s'.refresh ensures Linked(s', k) {
        if k != r.reply.issued.refresh.value {
          assert s'.refresh[k] == s.refresh[k];
          assert Linked(s, k);
          assert s.refresh[k].access != access;
        }
      }
    }
  }

  /** With fresh tokens an issue adds exactly one entry to each index: no two grants share a token. */
  lemma IssueGrowsIndices(s: JwtIssuer, g: Grant, now: int, access: string, tag: Generator)
    requires access !in s.access
    requires var t := tag(WrappingInc(s.usage), SetDuration(s.duration, g, now)); t.Some? && t.value !in s.refresh
    ensures |Issue(s, g, now, access, tag).issuer.access| == |s.access| + 1
    ensures |Issue(s, g, now, access, tag).issuer.refresh| == |s.refresh| + 1
  {
  }

  /**
   * Reusing an access token that a linked record already holds breaks the
   * invariant: the new record takes over the access entry, so the old
   * refresh entry no longer points at what its access token indexes.
   */
  lemma IssueReusedAccessBreaksConsistency(s: JwtIssuer, g: Grant, now: int, k: string, tag: Generator)
    requires Consistent(s)
    requires k in s.refresh
    requires var t := tag(WrappingInc(s.usage), SetDuration(s.duration, g, now)); t.Some? && t.value != k
    ensures !Consistent(Issue(s, g, now, s.refresh[k].access, tag).issuer)
  {
    var held := s.refresh[k];
    assert Linked(s, k);
    var s' := Issue(s, g, now, held.access, tag).issuer;
    assert s'.refresh[k] == held;
    assert s'.access[held.access].refresh != Some(k);
    assert !Linked(s', k);
  }

  /**
   * A refresh of a consistent issuer with an access token not already in
   * use, whose generator hands back a refresh token not held by another
   * entry, keeps the indices consistent, whether it succeeds or the generator
   * fails.
   */
  lemma RefreshPreservesConsistency(s: JwtIssuer, key: string, g: Grant, now: int, access: string, tag: Generator)
    requires Consistent(s)
    requires access !in s.access
    requires var t := tag(s.usage, SetDuration(s.duration, g, now)); t.Some? ==> t.value == key || t.value !in s.refresh
    ensures Consistent(Refresh(s, key, g, now, access, tag).issuer)
  {
    var r := Refresh(s, key, g, now, access, tag);
    if key in s.refresh {
      var t := s.refresh[key];
      assert Linked(s, key);
      var s' := r.issuer;
      if r.reply.Issued? {
        var newRefresh := r.reply.issued.refresh.value;
        forall k | k in s'.refresh ensures Linked(s', k) {
          if k != newRefresh {
            assert k in s.refresh && k != key;
            assert Linked(s, k);
            var t2 := s.refresh[k];
            assert t2.access != t.access;
            assert t2.access != access;
            assert s'.refresh[k] == t2;
          }
        }
      } else {
        forall k | k in s'.refresh ensures Linked(s', k) {
          assert Linked(s, k);
        }
      }
    }
  }

  // ------------------------------------------------------------------ rotation

  /**
   * A successful refresh of a consistent issuer with fresh tokens rotates the
   * pair: neither old token resolves, both new ones resolve to the updated
   * grant, and every other token resolves as before.
   */
  lemma RefreshRotates(s: JwtIssuer, key: string, g: Grant, now: int, access: string, tag: Generator)
    requires Consistent(s)
    requires access !in s.access
    requires var t := tag(s.usage, SetDuration(s.duration, g, now)); t.Some? && t.value !in s.refresh
    requires key in s.refresh
    ensures var r := Refresh(s, key, g, now, access, tag);
      var oldAccess := s.refresh[key].access;
      var newRefresh := tag(s.usage, SetDuration(s.duration, g, now)).value;
      && r.reply.Issued?
      && RecoverToken(r.issuer, oldAccess) == None
      && RecoverRefresh(r.issuer, key) == None
      && (forall a :: a != oldAccess && a != access ==> RecoverToken(r.issuer, a) == RecoverToken(s, a))
      && (forall k :: k != key && k != newRefresh ==> RecoverRefresh(r.issuer, k) == RecoverRefresh(s, k))
  {
    assert Linked(s, key);
  }

  /** Once a refresh token has been used, presenting it again is refused as unknown. */
  lemma SecondRefreshRefused(s: JwtIssuer, key: string, g: Grant, now: int, access: string, tag: Generator,
                             g2: Grant, now2: int, access2: string, tag2: Generator)
    requires Consistent(s)
    requires var t := tag(s.usage, SetDuration(s.duration, g, now)); t.Some? && t.value !in s.refresh
    requires Refresh(s, key, g, now, access, tag).reply.Issued?
    ensures var s' := Refresh(s, key, g, now, access, tag).issuer;
      Refresh(s', key, g2, now2, access2, tag2) == Step(s', Refused)
  {
  }

  /**
   * `issue` tags with `usage + 1` and `refresh` with `usage`, and both leave
   * the counter at the old value plus one, so the first refresh after an
   * issue asks the generator with the very tag the issue used. Unless the
   * issue's refresh token was already indexed (its key was then kept and the
   * refresh panics), the refresh succeeds exactly when the generator answers
   * that tag, and hands out its answer.
   */
  lemma RefreshReusesIssueTag(s: JwtIssuer, g: Grant, now: int, access: string, tag: Generator,
                              g2: Grant, now2: int, access2: string, tag2: Generator)
    requires Issue(s, g, now, access, tag).reply.Issued?
    ensures var i := Issue(s, g, now, access, tag);
      var r := Refresh(i.issuer, i.reply.issued.refresh.value, g2, now2, access2, tag2);
      var k := i.reply.issued.refresh.value;
      var asked := tag2(WrappingInc(s.usage), SetDuration(s.duration, g2, now2));
      && (r.reply.Panicked? <==> k in s.refresh)
      && (r.reply.Refused? <==> k !in s.refresh && asked.None?)
      && (r.reply.Issued? ==> r.reply.issued.refresh == asked)
  {
    var i := Issue(s, g, now, access, tag);
    var k := i.reply.issued.refresh.value;
    assert i.issuer.refresh[k] == i.issuer.access[access];
    assert (k in i.issuer.keptKeys) == (k in s.refresh);
  }

  // ------------------------------------------------------------------ collisions

  /** A generator whose answer depends on the tag alone. */
  function TagOnlyGenerator(): Generator {
    (u: u64, g: Grant) => Some(if u == 1 then "r1" else "r2")
  }

  /**
   * A refresh whose generator hands back a refresh token that another entry
   * still holds: issue "r1" (tag 1) and "r2" (tag 2), then refresh "r1",
   * which asks with tag 2 again and receives "r2". The insert keeps the
   * second issue's key, the invariant is broken, and refreshing "r2" trips
   * the source's first `assert!`.
   */
  lemma RefreshCollisionPanics(g: Grant, now: int)
    ensures var s1 := Issue(New(), g, now, "a1", TagOnlyGenerator()).issuer;
      var s2 := Issue(s1, g, now, "a2", TagOnlyGenerator()).issuer;
      var r3 := Refresh(s2, "r1", g, now, "a3", TagOnlyGenerator());
      && Consistent(s2)
      && r3.reply == Issued(IssuedToken("a3", Some("r2"), g.until))
      && !Consistent(r3.issuer)
      && Refresh(r3.issuer, "r2", g, now, "a4", TagOnlyGenerator()).reply.Panicked?
  {
    var s0 := New();
    var s1 := Issue(s0, g, now, "a1", TagOnlyGenerator()).issuer;
    IssuePreservesConsistency(s0, g, now, "a1", TagOnlyGenerator());
    assert s1.refresh.Keys == {"r1"} && s1.access.Keys == {"a1"};
    var s2 := Issue(s1, g, now, "a2", TagOnlyGenerator()).issuer;
    IssuePreservesConsistency(s1, g, now, "a2", TagOnlyGenerator());
    assert s2.usage == 2;
    assert "r2" in s2.refresh;
    var s3 := Refresh(s2, "r1", g, now, "a3", TagOnlyGenerator()).issuer;
    assert "r2" in s3.keptKeys;
    assert !Linked(s3, "r2");
  }

  // ------------------------------------------------------------------ the stub

  /** Two grants both given the stub's access token, with two distinct refresh tokens. */
  function StubGenerator(): Generator {
    (u: u64, g: Grant) => Some(if u == 1 then "first" else "second")
  }

  /**
   * The stub in action: from a new issuer, two issues leave one access entry
   * for two refresh entries, the invariant is broken, and refreshing the
   * first pair trips the source's second `assert!`, on the access entry.
   */
  lemma StubBreaksConsistency(g1: Grant, g2: Grant, now: int)
    ensures var s1 := IssueAsWritten(New(), g1, now, StubGenerator()).issuer;
      var s2 := IssueAsWritten(s1, g2, now, StubGenerator()).issuer;
      && Consistent(s1)
      && |s2.access| == 1 && |s2.refresh| == 2
      && !Consistent(s2)
      && Refresh(s2, "first", g1, now, AccessTokenStub(g1), StubGenerator()).reply.Panicked?
  {
    var s0 := New();
    var s1 := IssueAsWritten(s0, g1, now, StubGenerator()).issuer;
    IssuePreservesConsistency(s0, g1, now, "Hewwo", StubGenerator());
    assert s1.refresh.Keys == {"first"};
    assert s1.refresh["first"].access == "Hewwo";
    IssueReusedAccessBreaksConsistency(s1, g2, now, "first", StubGenerator());
    var s2 := IssueAsWritten(s1, g2, now, StubGenerator()).issuer;
    assert s2.access.Keys == {"Hewwo"};
    assert s2.refresh.Keys == {"first", "second"};
  }
}

=== FILE: light_table.dfy ===
/**
 * The queries of `models/light.rs` over an in-memory `lights` table (a
 * sequence of rows in insertion order, which updates keep) and a `devices`
 * table for the join.
 * The `_secret` and `_user_id` arguments the update functions take are never
 * read by the source, so the model does not take them.
 */
module LightTable {
  import opened Wrappers
  import opened Numbers
  import opened Models
  import Rows

  /** A table after an `UPDATE .. RETURNING`, with the row `get_result` hands back (`None` where the source's `unwrap` panics). */
  datatype Updated = Updated(table: seq<Light>, row: Option<Light>)

  /** Rows with another id are untouched; rows with this id become `f` of themselves. */
  predicate UpdatedWhere(t: seq<Light>, t': seq<Light>, id: Uuid, f: Light -> Light) {
    |t'| == |t| && forall i :: 0 <= i < |t| ==> t'[i] == if t[i].lightId == id then f(t[i]) else t[i]
  }

  function SetWhere(t: seq<Light>, id: Uuid, f: Light -> Light): (r: Updated)
    requires forall l :: f(l).lightId == l.lightId
    ensures UpdatedWhere(t, r.table, id, f)
    ensures r.row == Rows.First(r.table, (l: Light) => l.lightId == id)
  {
    var t' := seq(|t|, i requires 0 <= i < |t| => if t[i].lightId == id then f(t[i]) else t[i]);
    Updated(t', Rows.First(t', (l: Light) => l.lightId == id))
  }

  function SetBrightness(b: int32): Light -> Light {
    (l: Light) => l.(brightness := b)
  }

  function SetOnState(on: bool): Light -> Light {
    (l: Light) => l.(isOn := on)
  }

  function SetState(s: LightState): Light -> Light {
    (l: Light) => l.(isOn := s.isOn, brightness := s.brightness, rgb := s.color)
  }

  function SetColor(c: int32): Light -> Light {
    (l: Light) => l.(rgb := c)
  }

  /** Whether some row has this id. */
  predicate HasLight(t: seq<Light>, id: Uuid) {
    exists i :: 0 <= i < |t| && t[i].lightId == id
  }

  /** `remove_device`: deletes every row with this id and reports whether any was deleted. */
  function RemoveDevice(t: seq<Light>, id: Uuid): (r: (seq<Light>, bool))
    ensures r.1 <==> HasLight(t, id)
    ensures forall l :: l in r.0 <==> l in t && l.lightId != id
    ensures forall l {:trigger multiset(r.0)[l]} :: multiset(r.0)[l] == (if l.lightId != id then multiset(t)[l] else 0)
  {
    var others := (l: Light) => l.lightId != id;
    Rows.FilterCounts(t, others);
    var kept := Rows.Filter(t, others);
    (kept, |kept| < |t|)
  }

  /**
   * `insert_device`: adds `Light::new(id, secret, userId)`. `light_id` is
   * the table's key, so the insert fails, changing nothing, when the id is taken.
   */
  function InsertDevice(t: seq<Light>, id: Uuid, secret: string, userId: int32): (r: (seq<Light>, bool))
    ensures r.1 <==> !HasLight(t, id)
    ensures r.1 ==> r.0 == t + [LightNew(id, secret, userId)]
    ensures !r.1 ==> r.0 == t
  {
    if HasLight(t, id) then (t, false) else (t + [LightNew(id, secret, userId)], true)
  }

  /** `update_device_brightness`: only the brightness of the rows with this id changes. */
  function UpdateDeviceBrightness(t: seq<Light>, id: Uuid, brightness: int32): (r: Updated)
    ensures |r.table| == |t|
    ensures forall i :: 0 <= i < |t| && t[i].lightId == id ==> r.table[i] == t[i].(brightness := brightness)
    ensures forall i :: 0 <= i < |t| && t[i].lightId != id ==> r.table[i] == t[i]
    ensures r.row.Some? <==> HasLight(t, id)
    ensures r.row.Some? ==> r.row.value.lightId == id && r.row.value.brightness == brightness
  {
    SetWhere(t, id, SetBrightness(brightness))
  }

  /**
   * `update_device_color` as written: it sets the `brightness` column to the
   * colour and leaves `rgb` alone, so it coincides with `update_device_brightness`.
   */
  function UpdateDeviceColor(t: seq<Light>, id: Uuid, color: int32): (r: Updated)
    ensures |r.table| == |t|
    ensures forall i :: 0 <= i < |t| ==> r.table[i].rgb == t[i].rgb
    ensures r == UpdateDeviceBrightness(t, id, color)
  {
    SetWhere(t, id, SetBrightness(color))
  }

  /** The colour update as evidently intended: only the `rgb` of the rows with this id changes. */
  function UpdateDeviceColorIntended(t: seq<Light>, id: Uuid, color: int32): (r: Updated)
    ensures |r.table| == |t|
    ensures forall i :: 0 <= i < |t| && t[i].lightId == id ==> r.table[i] == t[i].(rgb := color)
    ensures forall i :: 0 <= i < |t| && t[i].lightId != id ==> r.table[i] == t[i]
    ensures r.row.Some? <==> HasLight(t, id)
    ensures r.row.Some? ==> r.row.value.rgb == color
  {
    SetWhere(t, id, SetColor(color))
  }

  /** A light whose colour is not already the requested value keeps its old colour under the colour update as written. */
  lemma ColorUpdateLosesColor(t: seq<Light>, i: nat, color: int32)
    requires i < |t| && t[i].rgb != color
    ensures UpdateDeviceColor(t, t[i].lightId, color).table[i].rgb != color
    ensures UpdateDeviceColor(t, t[i].lightId, color).table[i].brightness == color
    ensures UpdateDeviceColorIntended(t, t[i].lightId, color).table[i].rgb == color
  {
  }

  /** `update_device_is_on`: only the on/off state of the rows with this id changes. */
  function UpdateDeviceIsOn(t: seq<Light>, id: Uuid, on: bool): (r: Updated)
    ensures |r.table| == |t|
    ensures forall i :: 0 <= i < |t| && t[i].lightId == id ==> r.table[i] == t[i].(isOn := on)
    ensures forall i :: 0 <= i < |t| && t[i].lightId != id ==> r.table[i] == t[i]
    ensures r.row.Some? <==> HasLight(t, id)
    ensures r.row.Some? ==> r.row.value.isOn == on
  {
    SetWhere(t, id, SetOnState(on))
  }

  /** Switching a row in memory and switching it in the table agree. */
  lemma SwitchMatchesUpdate(t: seq<Light>, i: nat)
    requires i < |t|
    ensures UpdateDeviceIsOn(t, t[i].lightId, true).table[i] == SwitchOn(t[i])
    ensures UpdateDeviceIsOn(t, t[i].lightId, false).table[i] == SwitchOff(t[i])
  {
  }

  /** `update_device`: on/off state, brightness and colour change together, to the given state. */
  function UpdateDevice(t: seq<Light>, id: Uuid, s: LightState): (r: Updated)
    ensures |r.table| == |t|
    ensures forall i :: 0 <= i < |t| && t[i].lightId == id ==>
      r.table[i].isOn == s.isOn && r.table[i].brightness == s.brightness && r.table[i].rgb == s.color
      && r.table[i].lightId == id && r.table[i].userId == t[i].userId && r.table[i].secret == t[i].secret
    ensures forall i :: 0 <= i < |t| && t[i].lightId != id ==> r.table[i] == t[i]
    ensures r.row.Some? <==> HasLight(t, id)
  {
    SetWhere(t, id, SetState(s))
  }

  /** `get_devices_by_user`: exactly the rows of this user, each as often as in the table. */
  function GetDevicesByUser(t: seq<Light>, userId: int32): (r: seq<Light>)
    ensures forall l :: l in r <==> l in t && l.userId == userId
    ensures forall l {:trigger multiset(r)[l]} :: multiset(r)[l] == (if l.userId == userId then multiset(t)[l] else 0)
  {
    var mine := (l: Light) => l.userId == userId;
    Rows.FilterCounts(t, mine);
    Rows.Filter(t, mine)
  }

  /** `get_device_by_id`: the first row with this id, `None` when there is none. */
  function GetDeviceById(t: seq<Light>, id: Uuid): (r: Option<Light>)
    ensures r.None? <==> !HasLight(t, id)
    ensures r.Some? ==> exists i :: 0 <= i < |t| && t[i] == r.value && r.value.lightId == id
                                    && forall j :: 0 <= j < i ==> t[j].lightId != id
  {
    Rows.First(t, (l: Light) => l.lightId == id)
  }

  /** A `FullLight` describes the device row's identity and the light row's state. */
  function ToFullLight(l: Light, d: Device): (f: FullLight)
    ensures f.id == d.id && f.deviceType == d.deviceType && f.name == d.name && f.nicknames == d.nicknames
    ensures f.rgb == l.rgb && f.brightness == l.brightness && f.isOn == l.isOn
  {
    FullLight(d.id, d.deviceType, d.name, d.nicknames, l.rgb, l.brightness, l.isOn)
  }

  /** The devices rows that describe light `l` and belong to `userId`. */
  function Partners(l: Light, ds: seq<Device>, userId: int32): seq<FullLight> {
    if |ds| == 0 then []
    else (if ds[0].id == l.lightId && ds[0].userId == userId then [ToFullLight(l, ds[0])] else [])
         + Partners(l, ds[1..], userId)
  }

  /**
   * `get_full_device_data_by_user`: lights left-joined to devices on
   * `devices.id = lights.light_id`, keeping the pairs whose device belongs to
   * the user. The `WHERE` on a device column drops unmatched lights, so the
   * source's `unwrap` of the device half never fails.
   */
  function GetFullDeviceDataByUser(lights: seq<Light>, devices: seq<Device>, userId: int32): (r: seq<FullLight>)
    ensures forall f :: f in r <==>
      exists l, d :: l in lights && d in devices && d.id == l.lightId && d.userId == userId && f == ToFullLight(l, d)
  {
    JoinMembership(lights, devices, userId);
    Join(lights, devices, userId)
  }

  function Join(lights: seq<Light>, devices: seq<Device>, userId: int32): seq<FullLight> {
    if |lights| == 0 then [] else Partners(lights[0], devices, userId) + Join(lights[1..], devices, userId)
  }

  lemma {:induction false} PartnersMembership(l: Light, ds: seq<Device>, userId: int32)
    ensures forall f :: f in Partners(l, ds, userId) <==>
      exists d :: d in ds && d.id == l.lightId && d.userId == userId && f == ToFullLight(l, d)
  {
    if |ds| > 0 {
      PartnersMembership(l, ds[1..], userId);
      assert ds == [ds[0]] + ds[1..];
    }
  }

  lemma {:induction false} JoinMembership(lights: seq<Light>, devices: seq<Device>, userId: int32)
    ensures forall f :: f in Join(lights, devices, userId) <==>
      exists l, d :: l in lights && d in devices && d.id == l.lightId && d.userId == userId && f == ToFullLight(l, d)
  {
    if |lights| > 0 {
      PartnersMembership(lights[0], devices, userId);
      JoinMembership(lights[1..], devices, userId);
      assert lights == [lights[0]] + lights[1..];
    }
  }

  /**
   * After a column update (one that keeps every row's id, as all the
   * `update_device*` queries do), looking the id up finds the updated form
   * of the row it found before.
   */
  lemma LookupAfterUpdate(t: seq<Light>, t': seq<Light>, id: Uuid)
    requires |t'| == |t| && forall i :: 0 <= i < |t| ==> t'[i].lightId == t[i].lightId
    ensures GetDeviceById(t', id).Some? <==> GetDeviceById(t, id).Some?
    ensures GetDeviceById(t, id).Some? ==>
              exists i :: 0 <= i < |t| && t[i] == GetDeviceById(t, id).value && t'[i] == GetDeviceById(t', id).value
  {
    if GetDeviceById(t, id).Some? {
      var i :| 0 <= i < |t| && t[i] == GetDeviceById(t, id).value && t[i].lightId == id
               && forall j :: 0 <= j < i ==> t[j].lightId != id;
      assert t'[i].lightId == id;
      var k :| 0 <= k < |t'| && t'[k] == GetDeviceById(t', id).value && t'[k].lightId == id
               && forall j :: 0 <= j < k ==> t'[j].lightId != id;
      assert t[k].lightId == id;
      assert i == k;
    }
  }

  /** `get_traits_for_device_type`: exactly the trait rows of this device type, in table order. */
  function GetTraitsForDeviceType(traits: seq<Trait>, deviceType: string): (r: seq<Trait>)
    ensures forall x :: x in r <==> x in traits && x.deviceType == deviceType
    ensures forall x {:trigger multiset(r)[x]} :: multiset(r)[x] == (if x.deviceType == deviceType then multiset(traits)[x] else 0)
  {
    var ofType := (x: Trait) => x.deviceType == deviceType;
    Rows.FilterCounts(traits, ofType);
    Rows.Filter(traits, ofType)
  }
}

=== FILE: models.dfy ===
/**
 * The row and message types shared by the flat `models.rs` and the split
 * `models/light.rs`, `models/device.rs` and `models/user.rs` (the two copies
 * declare the same structs field for field), with the two behaviours only the
 * flat copy has: `BasicDevice::switch_on` / `switch_off`.
 */
module Models {
  import opened Wrappers
  import opened Numbers

  /** A row of the `lights` table. */
  datatype Light = Light(lightId: Uuid, rgb: int32, brightness: int32, isOn: bool, userId: int32, secret: string)

  /** The state a light is told to take: what `send_device_command` transmits. */
  datatype LightState = LightState(isOn: bool, brightness: int32, color: int32)

  /** A row of the `traits` table (`trait_` is `name`). */
  datatype Trait = Trait(id: int32, deviceType: string, name: string)

  /** A light joined with the device row describing it. */
  datatype FullLight = FullLight(id: Uuid, deviceType: string, name: string, nicknames: seq<Option<string>>,
                                 rgb: int32, brightness: int32, isOn: bool)

  /** A row of the `devices` table. */
  datatype Device = Device(id: Uuid, deviceType: string, userId: int32, internalName: string, name: string,
                           nicknames: seq<Option<string>>, traits: seq<Option<string>>)

  /** The body of a device command request: which device, and the optional new values. */
  datatype DeviceData = DeviceData(deviceId: Uuid, brightness: Option<int32>, color: Option<int32>, isOn: Option<bool>)

  /** The body of a device registration request. */
  datatype NewDevice = NewDevice(id: Uuid, deviceType: string, secret: string, name: string)

  /** What a device signs to prove it is genuine. */
  datatype DeviceSignature = DeviceSignature(id: Uuid, deviceType: string)

  /** A row of the `users` table. */
  datatype User = User(id: int32, email: string, password: string, firstName: string, lastName: string)

  /** The public view of a user. */
  datatype Me = Me(id: int32, email: string, firstName: string, lastName: string)

  datatype LoginUser = LoginUser(email: string, password: string)

  datatype RegisterUser = RegisterUser(email: string, password: string, repPassword: string,
                                       firstName: string, lastName: string)

  /** The insertable user: a registration without the repeated password. */
  datatype NewUser = NewUser(email: string, password: string, firstName: string, lastName: string)

  /** The colour a new light starts with: 255 * 255 * 255. */
  const DEFAULT_RGB: int32 := 16_581_375
  const FULL_BRIGHTNESS: int32 := 255

  /**
   * The two light types of `constants.rs`, which is not part of this model:
   * the strings are placeholders. All the contracts rely on is that the two
   * differ; which types need CoAP is stated through the "light" substring
   * test itself.
   */
  const RGB_LIGHT: string := "rgb_light"
  const NON_RGB_LIGHT: string := "non_rgb_light"

  predicate IsLightType(deviceType: string) {
    deviceType == RGB_LIGHT || deviceType == NON_RGB_LIGHT
  }

  /** `Light::new`: a new light belongs to `userId`, is on, at full brightness and the default colour. */
  function LightNew(lightId: Uuid, secret: string, userId: int32): (l: Light)
    ensures l.lightId == lightId && l.secret == secret && l.userId == userId
    ensures l.isOn && l.brightness == 255 && l.rgb == 255 * 255 * 255
  {
    Light(lightId, DEFAULT_RGB, FULL_BRIGHTNESS, true, userId, secret)
  }

  /** `From<RegisterUser> for NewUser`: keeps email, password and both names, forgets the repetition. */
  function NewUserFrom(reg: RegisterUser): (u: NewUser)
    ensures u.email == reg.email && u.password == reg.password
    ensures u.firstName == reg.firstName && u.lastName == reg.lastName
  {
    NewUser(reg.email, reg.password, reg.firstName, reg.lastName)
  }

  /** The repeated password does not reach the database: registrations differing only there insert the same row. */
  lemma NewUserIgnoresRepetition(a: RegisterUser, b: RegisterUser)
    requires a.(repPassword := b.repPassword) == b
    ensures NewUserFrom(a) == NewUserFrom(b)
  {
  }

  /** Columns other than `is_on` agree. */
  predicate SameButOnState(a: Light, b: Light) {
    a.lightId == b.lightId && a.rgb == b.rgb && a.brightness == b.brightness
    && a.userId == b.userId && a.secret == b.secret
  }

  /** `BasicDevice::switch_on`: the light is on and nothing else about it changes. */
  function SwitchOn(l: Light): (r: Light)
    ensures r.isOn && SameButOnState(l, r)
  {
    l.(isOn := true)
  }

  /** `BasicDevice::switch_off`: the light is off and nothing else about it changes. */
  function SwitchOff(l: Light): (r: Light)
    ensures !r.isOn && SameButOnState(l, r)
  {
    l.(isOn := false)
  }

  /** Switching is idempotent and only the last switch counts. */
  lemma SwitchLastWins(l: Light)
    ensures SwitchOn(SwitchOn(l)) == SwitchOn(l) && SwitchOff(SwitchOff(l)) == SwitchOff(l)
    ensures SwitchOn(SwitchOff(l)) == SwitchOn(l) && SwitchOff(SwitchOn(l)) == SwitchOff(l)
    ensures l.isOn ==> SwitchOn(l) == l
    ensures !l.isOn ==> SwitchOff(l) == l
  {
  }
}

=== FILE: numbers.dfy ===
/**
 * Fixed-width integers of the Rust source and the textual forms the backend
 * produces and reads back: `i32::to_string`, `str::parse::<i32>`, the
 * hyphenated form of a UUID, and `str::contains`.
 */
module Numbers {
  import opened Wrappers

  const I32_MIN: int := -0x8000_0000
  const I32_MAX: int := 0x7FFF_FFFF
  const U64_MODULUS: int := 0x1_0000_0000_0000_0000
  const UUID_MODULUS: int := 0x1_0000_0000_0000_0000_0000_0000_0000_0000

  predicate IsI32(n: int) {
    I32_MIN <= n <= I32_MAX
  }

  type int32 = n: int | I32_MIN <= n <= I32_MAX
  type u64 = n: int | 0 <= n < U64_MODULUS
  /** `usize` on the 64-bit targets the server runs on. */
  type usize = n: int | 0 <= n < U64_MODULUS
  /** A UUID as the 128-bit big-endian number of its 16 bytes (PostgreSQL orders `uuid` bytewise, which is this order). */
  type Uuid = n: int | 0 <= n < UUID_MODULUS

  /** `u64::wrapping_add(1)`. */
  function WrappingInc(u: u64): (r: u64)
    ensures u < U64_MODULUS - 1 ==> r == u + 1
    ensures u == U64_MODULUS - 1 ==> r == 0
  {
    (u + 1) % U64_MODULUS
  }

  /** `i64 as usize`: keeps the low 64 bits, two's complement. */
  function AsUsize(n: int): (r: usize)
    ensures 0 <= n < U64_MODULUS ==> r == n
    ensures -U64_MODULUS <= n < 0 ==> r == n + U64_MODULUS
  {
    n % U64_MODULUS
  }

  // ---------------------------------------------------------------- decimal

  predicate IsDigit(c: char) {
    '0' <= c <= '9'
  }

  predicate AllDigits(s: string) {
    forall i :: 0 <= i < |s| ==> IsDigit(s[i])
  }

  function DigitValue(c: char): nat
    requires IsDigit(c)
  {
    (c as int) - ('0' as int)
  }

  function DigitChar(d: nat): (c: char)
    requires d < 10
    ensures IsDigit(c) && DigitValue(c) == d
  {
    (('0' as int) + d) as char
  }

  /** The value of a string of decimal digits, most significant digit first. */
  function DigitsValue(s: string): nat
    requires AllDigits(s)
  {
    if |s| == 0 then 0 else 10 * DigitsValue(s[..|s| - 1]) + DigitValue(s[|s| - 1])
  }

  /** The decimal digits of `n`, without leading zeros. */
  function NatToDecimal(n: nat): (r: string)
    ensures 0 < |r|
    ensures AllDigits(r)
    ensures r[0] == '0' ==> n == 0
  {
    if n < 10 then [DigitChar(n)] else NatToDecimal(n / 10) + [DigitChar(n % 10)]
  }

  /** `i32::to_string`: a '-' for negative numbers, then the digits of the magnitude. */
  function I32ToString(n: int32): (r: string)
    ensures 0 < |r|
    ensures r[0] == '-' <==> n < 0
  {
    if n < 0 then "-" + NatToDecimal(-(n as int)) else NatToDecimal(n)
  }

  /**
   * `str::parse::<i32>`: an optional '+' or '-', then at least one ASCII
   * digit and nothing else, with a value inside the i32 range. Every other
   * string is an error, here `None`.
   */
  function ParseI32(s: string): (r: Option<int32>)
    ensures |s| == 0 ==> r.None?
    ensures 0 < |s| && AllDigits(s) && DigitsValue(s) <= I32_MAX ==> r == Some(DigitsValue(s))
    ensures 1 < |s| && s[0] == '+' && AllDigits(s[1..]) && DigitsValue(s[1..]) <= I32_MAX ==>
              r == Some(DigitsValue(s[1..]))
    ensures 1 < |s| && s[0] == '-' && AllDigits(s[1..]) && -(DigitsValue(s[1..]) as int) >= I32_MIN ==>
              r == Some(-(DigitsValue(s[1..]) as int))
    ensures r.Some? ==>
              || (0 < |s| && AllDigits(s) && r.value == DigitsValue(s))
              || (1 < |s| && s[0] == '+' && AllDigits(s[1..]) && r.value == DigitsValue(s[1..]))
              || (1 < |s| && s[0] == '-' && AllDigits(s[1..]) && r.value == -(DigitsValue(s[1..]) as int))
  {
    if |s| == 0 then None
    else
      var digits := if s[0] == '-' || s[0] == '+' then s[1..] else s;
      if |digits| == 0 || !AllDigits(digits) then None
      else
        var mag: int := DigitsValue(digits);
        var v: int := if s[0] == '-' then -mag else mag;
        if IsI32(v) then Some(v) else None
  }

  lemma {:induction false} DecimalRoundTrip(n: nat)
    ensures DigitsValue(NatToDecimal(n)) == n
  {
    if n >= 10 {
      var s := NatToDecimal(n);
      assert s[..|s| - 1] == NatToDecimal(n / 10);
      DecimalRoundTrip(n / 10);
    }
  }

  /** Parsing what `i32::to_string` printed gives the number back. */
  lemma I32RoundTrip(n: int32)
    ensures ParseI32(I32ToString(n)) == Some(n)
  {
    DecimalRoundTrip(if n < 0 then -(n as int) else n);
    if n < 0 {
      assert I32ToString(n)[1..] == NatToDecimal(-(n as int));
    }
  }

  /** Distinct numbers print differently: the decimal form identifies the number. */
  lemma I32ToStringInjective(m: int32, n: int32)
    requires I32ToString(m) == I32ToString(n)
    ensures m == n
  {
    I32RoundTrip(m);
    I32RoundTrip(n);
  }

  // ---------------------------------------------------------------- uuid

  function HexDigit(d: nat): (c: char)
    requires d < 16
    ensures IsHexChar(c) && HexValue(c) == d
  {
    if d < 10 then (('0' as int) + d) as char else (('a' as int) + d - 10) as char
  }

  predicate IsHexChar(c: char) {
    IsDigit(c) || 'a' <= c <= 'f'
  }

  function HexValue(c: char): nat
    requires IsHexChar(c)
  {
    if IsDigit(c) then DigitValue(c) else (c as int) - ('a' as int) + 10
  }

  /** The value of a string of hexadecimal digits, most significant digit first. */
  function HexDigitsValue(s: string): nat
    requires forall i :: 0 <= i < |s| ==> IsHexChar(s[i])
  {
    if |s| == 0 then 0 else 16 * HexDigitsValue(s[..|s| - 1]) + HexValue(s[|s| - 1])
  }

  function Pow16(w: nat): (r: nat)
    ensures r > 0
  {
    if w == 0 then 1 else 16 * Pow16(w - 1)
  }

  lemma {:induction false} Pow16Add(a: nat, b: nat)
    ensures Pow16(a + b) == Pow16(a) * Pow16(b)
  {
    if b > 0 {
      Pow16Add(a, b - 1);
      assert Pow16(a + b) == 16 * Pow16(a + b - 1);
      assert 16 * (Pow16(a) * Pow16(b - 1)) == Pow16(a) * (16 * Pow16(b - 1));
    }
  }

  /** 32 hexadecimal digits are 128 bits. */
  lemma Pow16Uuid()
    ensures Pow16(32) == UUID_MODULUS
  {
    assert Pow16(4) == 0x1_0000;
    Pow16Add(4, 4);
    Pow16Add(8, 8);
    Pow16Add(16, 16);
  }

  /** The lowest `width` hexadecimal digits of `n`, most significant first. */
  function Hex(n: nat, width: nat): (r: string)
    ensures |r| == width
    ensures forall i :: 0 <= i < |r| ==> IsHexChar(r[i])
  {
    if width == 0 then "" else Hex(n / 16, width - 1) + [HexDigit(n % 16)]
  }

  /** Reading the digits back gives the number, when it fits in `width` digits. */
  lemma {:induction false} HexRoundTrip(n: nat, width: nat)
    requires n < Pow16(width)
    ensures HexDigitsValue(Hex(n, width)) == n
  {
    if width > 0 {
      var h := Hex(n, width);
      assert h[..|h| - 1] == Hex(n / 16, width - 1);
      HexRoundTrip(n / 16, width - 1);
    }
  }

  /**
   * `Uuid::to_string`: the 32 lower-case hex digits of the 128-bit value,
   * most significant first, grouped 8-4-4-4-12 by hyphens.
   */
  function UuidToString(u: Uuid): (r: string)
    ensures |r| == 36
    ensures r[8] == '-' && r[13] == '-' && r[18] == '-' && r[23] == '-'
    ensures r[..8] + r[9..13] + r[14..18] + r[19..23] + r[24..] == Hex(u, 32)
  {
    var h := Hex(u, 32);
    var r := h[..8] + "-" + h[8..12] + "-" + h[12..16] + "-" + h[16..20] + "-" + h[20..];
    assert r[..8] == h[..8] && r[9..13] == h[8..12] && r[14..18] == h[12..16];
    assert r[19..23] == h[16..20] && r[24..] == h[20..];
    assert h == h[..8] + h[8..12] + h[12..16] + h[16..20] + h[20..];
    r
  }

  /** Distinct UUIDs print differently, so a device's internal name identifies its UUID. */
  lemma UuidToStringInjective(u: Uuid, v: Uuid)
    requires UuidToString(u) == UuidToString(v)
    ensures u == v
  {
    Pow16Uuid();
    HexRoundTrip(u, 32);
    HexRoundTrip(v, 32);
  }

  // ---------------------------------------------------------------- substrings

  /** `needle` occurs in `s` starting at offset `i`. */
  predicate OccursAt(s: string, needle: string, i: int)
    requires 0 <= i <= |s| - |needle|
  {
    s[i..i + |needle|] == needle
  }

  /** `str::contains(needle)`: `needle` occurs in `s` at some offset. */
  predicate Contains(s: string, needle: string): (b: bool)
    decreases |s|
    ensures b <==> exists i :: 0 <= i <= |s| - |needle| && OccursAt(s, needle, i)
  {
    if |needle| > |s| then false
    else if s[..|needle|] == needle then
      assert OccursAt(s, needle, 0);
      true
    else
      var b := Contains(s[1..], needle);
      assert !OccursAt(s, needle, 0);
      assert forall i :: 1 <= i <= |s| - |needle| ==> (OccursAt(s, needle, i) <==> OccursAt(s[1..], needle, i - 1)) by {
        forall i | 1 <= i <= |s| - |needle| ensures OccursAt(s, needle, i) <==> OccursAt(s[1..], needle, i - 1) {
          assert s[1..][i - 1..i - 1 + |needle|] == s[i..i + |needle|];
        }
      }
      assert b ==> exists i :: 0 <= i <= |s| - |needle| && OccursAt(s, needle, i) by {
        if b {
          var j :| 0 <= j <= |s[1..]| - |needle| && OccursAt(s[1..], needle, j);
          assert OccursAt(s, needle, j + 1);
        }
      }
      b
  }
}

=== FILE: oauth.dfy ===
/**
 * The decisions `routes/oauth.rs` makes around oxide_auth's flows: the
 * one-client registry, the consent page and its two buttons, the owner the
 * consent submission resolves from the session cookie, and the answer of the
 * protected resource. The flows themselves are oxide_auth's; the resource
 * flow comes in as a `ResourceFlow`, a function of the scopes demanded.
 */
module OAuth {
  import opened Wrappers
  import opened Issuer
  import Session

  const LOCAL_CLIENT: string := "LocalClient"
  const CLIENT_REDIRECT: string := "http://localhost:8000/clientside/endpoint"
  const DEFAULT_SCOPE: string := "default-scope"
  const AUTHORIZE_ROUTE: string := "/api/v1/authorize"
  /** The owner a consent submission names when it cannot tell who is logged in. */
  const NO_OWNER: string := "-1"

  /** A registered client: id, registered redirect, default scope, and whether it is public. */
  datatype Client = Client(id: string, redirectUri: string, scope: set<string>, isPublic: bool)

  type Registry = map<string, Client>

  /** The registrar of `MyState::preconfigured`: one public client. */
  function Preconfigured(): (r: Registry)
    ensures r.Keys == {LOCAL_CLIENT}
    ensures r[LOCAL_CLIENT].isPublic && r[LOCAL_CLIENT].id == LOCAL_CLIENT
    ensures r[LOCAL_CLIENT].redirectUri == CLIENT_REDIRECT && r[LOCAL_CLIENT].scope == {DEFAULT_SCOPE}
  {
    map[LOCAL_CLIENT := Client(LOCAL_CLIENT, CLIENT_REDIRECT, {DEFAULT_SCOPE}, true)]
  }

  function Lookup(reg: Registry, clientId: string): (r: Option<Client>)
    ensures r.Some? <==> clientId in reg
    ensures r.Some? ==> r.value == reg[clientId]
  {
    if clientId in reg then Some(reg[clientId]) else None
  }

  /** Only `LocalClient` is known, with its redirect and scope. */
  lemma OnlyLocalClient(clientId: string)
    ensures Lookup(Preconfigured(), clientId).Some? <==> clientId == LOCAL_CLIENT
    ensures Lookup(Preconfigured(), LOCAL_CLIENT) == Some(Client(LOCAL_CLIENT, CLIENT_REDIRECT, {DEFAULT_SCOPE}, true))
  {
  }

  /** The pending request a consent page is about: its pre-grant and the client's `state`. */
  datatype Solicitation = Solicitation(clientId: string, redirectUri: string, scope: set<string>, state: Option<string>)

  /** A submit button: the route it posts to and the query parameters it carries, in order. */
  datatype FormAction = FormAction(route: string, query: seq<(string, string)>)

  /** What the consent page shows and the two buttons it offers. */
  datatype ConsentPage = ConsentPage(clientId: string, redirectUri: string, scope: set<string>,
                                     accept: FormAction, deny: FormAction)

  datatype OwnerConsent = InProgress(page: ConsentPage) | Authorized(ownerId: string) | Denied

  /**
   * The parameters `consent_page_html` url-encodes into both buttons:
   * `response_type=code`, the client id, the redirect, a hard-coded
   * `user_id=2`, then `state` when the request has one.
   */
  function ConsentQuery(sol: Solicitation): (q: seq<(string, string)>)
    ensures |q| == if sol.state.Some? then 5 else 4
    ensures q[0] == ("response_type", "code") && q[1] == ("client_id", sol.clientId)
    ensures q[2] == ("redirect_uri", sol.redirectUri) && q[3] == ("user_id", "2")
    ensures sol.state.Some? ==> q[4] == ("state", sol.state.value)
  {
    var extra := [("response_type", "code"), ("client_id", sol.clientId),
                  ("redirect_uri", sol.redirectUri), ("user_id", "2")];
    if sol.state.Some? then extra + [("state", sol.state.value)] else extra
  }

  /**
   * `consent_page_html`: Accept posts the query followed by `allow=true`,
   * Deny the same query followed by `deny=true`. Appending `&k=v` to the
   * encoded query is encoding the query extended by `(k, v)`.
   */
  function ConsentPageHtml(route: string, sol: Solicitation): (p: ConsentPage)
    ensures p.accept == FormAction(route, ConsentQuery(sol) + [("allow", "true")])
    ensures p.deny == FormAction(route, ConsentQuery(sol) + [("deny", "true")])
    ensures p.clientId == sol.clientId && p.redirectUri == sol.redirectUri && p.scope == sol.scope
  {
    var q := ConsentQuery(sol);
    ConsentPage(sol.clientId, sol.redirectUri, sol.scope,
                FormAction(route, q + [("allow", "true")]), FormAction(route, q + [("deny", "true")]))
  }

  /** `consent_form`: the first visit never decides; it shows the page for the authorize route. */
  function ConsentForm(sol: Solicitation): (r: OwnerConsent)
    ensures r.InProgress?
    ensures r.page == ConsentPageHtml(AUTHORIZE_ROUTE, sol)
  {
    InProgress(ConsentPageHtml(AUTHORIZE_ROUTE, sol))
  }

  /** `consent_decision`: the owner is authorised exactly when consent was given. */
  function ConsentDecision(allowed: bool, ownerId: string): (r: OwnerConsent)
    ensures r == Authorized(ownerId) <==> allowed
    ensures r == Denied <==> !allowed
  {
    if allowed then Authorized(ownerId) else Denied
  }

  function ParseBool(v: string): Option<bool> {
    if v == "true" then Some(true) else if v == "false" then Some(false) else None
  }

  /** The `?<allow>` query guard: the first `allow` parameter as a boolean; absent or unreadable is `None`. */
  function QueryAllow(query: seq<(string, string)>): (r: Option<bool>)
    ensures (forall i :: 0 <= i < |query| ==> query[i].0 != "allow") ==> r.None?
    ensures forall i :: 0 <= i < |query| && query[i].0 == "allow" && (forall j :: 0 <= j < i ==> query[j].0 != "allow")
              ==> r == ParseBool(query[i].1)
  {
    if |query| == 0 then None
    else if query[0].0 == "allow" then ParseBool(query[0].1)
    else
      var rest := query[1..];
      assert forall i :: 1 <= i < |query| ==> rest[i - 1] == query[i];
      QueryAllow(rest)
  }

  /**
   * The owner `authorize_consent` hands to the decision: `sub` of a session
   * cookie that decodes, otherwise (no cookie, or one that does not decode)
   * the placeholder "-1".
   */
  function ConsentOwner(cookie: Option<string>, decode: Session.Decoder): (r: string)
    ensures cookie.None? ==> r == NO_OWNER
    ensures cookie.Some? && decode(cookie.value).Err? ==> r == NO_OWNER
    ensures cookie.Some? && decode(cookie.value).Ok? ==> r == decode(cookie.value).value.sub
  {
    if cookie.None? then NO_OWNER
    else
      var claims := Session.ClaimFromJwt(cookie.value, decode);
      if claims.None? then NO_OWNER else claims.value.sub
  }

  /** `authorize_consent`'s solicitor: a missing `allow` counts as refusal; the owner comes from the cookie. */
  function AuthorizeConsent(allow: Option<bool>, cookie: Option<string>, decode: Session.Decoder): (r: OwnerConsent)
    ensures r.Authorized? <==> allow == Some(true)
    ensures r.Authorized? ==> r.ownerId == ConsentOwner(cookie, decode)
    ensures !r.Authorized? ==> r == Denied
  {
    ConsentDecision(allow.GetOr(false), ConsentOwner(cookie, decode))
  }

  /** Pressing Deny refuses, whoever is logged in: its query has no `allow` parameter. */
  lemma DenyButtonDenies(sol: Solicitation, cookie: Option<string>, decode: Session.Decoder)
    ensures AuthorizeConsent(QueryAllow(ConsentForm(sol).page.deny.query), cookie, decode) == Denied
  {
    var q := ConsentForm(sol).page.deny.query;
    assert forall i :: 0 <= i < |q| ==> q[i].0 != "allow";
  }

  /** Pressing Accept authorises the owner the cookie names. */
  lemma AcceptButtonAuthorizes(sol: Solicitation, cookie: Option<string>, decode: Session.Decoder)
    ensures AuthorizeConsent(QueryAllow(ConsentForm(sol).page.accept.query), cookie, decode)
            == Authorized(ConsentOwner(cookie, decode))
  {
    var q := ConsentQuery(sol);
    assert forall i :: 0 <= i < |q| ==> q[i].0 != "allow";
    QueryAllowSkips(q, [("allow", "true")]);
  }

  lemma {:induction false} QueryAllowSkips(q: seq<(string, string)>, rest: seq<(string, string)>)
    requires forall i :: 0 <= i < |q| ==> q[i].0 != "allow"
    ensures QueryAllow(q + rest) == QueryAllow(rest)
  {
    if |q| > 0 {
      assert (q + rest)[0] == q[0];
      assert (q + rest)[1..] == q[1..] + rest;
      assert forall i :: 0 <= i < |q[1..]| ==> q[1..][i] == q[i + 1];
      QueryAllowSkips(q[1..], rest);
    } else {
      assert q + rest == rest;
    }
  }

  /** Without a session, accepting still authorises, with owner "-1": the submission is not refused. */
  lemma AnonymousAcceptAuthorizes(decode: Session.Decoder)
    ensures AuthorizeConsent(Some(true), None, decode) == Authorized(NO_OWNER)
  {
  }

  /** With the session cookie `jwt_from_id` made for user `u`, accepting authorises `u`. */
  lemma LoggedInAcceptAuthorizes(encode: Session.Encoder, decode: Session.Decoder, now: int, u: string, exp: Numbers.usize)
    requires Session.DecodesOwnTokens(encode, decode, now)
    requires now <= exp
    ensures AuthorizeConsent(Some(true), Some(Session.JwtFromId(u, exp, encode)), decode) == Authorized(u)
  {
    Session.JwtClaimsRoundTrip(encode, decode, now, u, exp);
  }

  /** What oxide_auth's resource flow concludes about the bearer token: allowed with its grant, a 401-style challenge, or an internal error. */
  datatype ResourceOutcome = Permitted(grant: Grant) | Challenged | FlowFailed

  /** The resource flow for one request, as a function of the scopes the endpoint demands. */
  type ResourceFlow = set<string> -> ResourceOutcome

  /** The scopes both protected endpoints demand. */
  function RequiredScopes(): set<string> {
    {DEFAULT_SCOPE}
  }

  /** The link the denial page offers to start authorisation. */
  const DENY_LINK: string := "/api/v1/authorize?response_type=code&client_id=LocalClient"

  datatype ResourceReply = Hello(body: string) | DenyPage(link: string) | FlowError

  /** `protected_resource`: "Hello, world" exactly when the flow permits the `default-scope` request. */
  function ProtectedResource(flow: ResourceFlow): (r: ResourceReply)
    ensures r.Hello? <==> flow({DEFAULT_SCOPE}).Permitted?
    ensures r.Hello? ==> r.body == "Hello, world"
    ensures r.DenyPage? <==> flow({DEFAULT_SCOPE}).Challenged?
    ensures r.DenyPage? ==> r.link == DENY_LINK
  {
    match flow(RequiredScopes())
    case Permitted(_) => Hello("Hello, world")
    case Challenged => DenyPage(DENY_LINK)
    case FlowFailed => FlowError
  }
}

=== FILE: rows.dfy ===
/**
 * The three query shapes the Diesel models use, over a table held as a
 * sequence of rows: `filter(..).load()`, `filter(..).load().first()` and
 * `order(key.desc()).load()`.
 */
module Rows {
  import opened Wrappers

  /** The rows of `t` satisfying `p`, in table order. */
  function Filter<T(==,!new)>(t: seq<T>, p: T -> bool): (r: seq<T>)
    ensures |r| <= |t|
    ensures forall i :: 0 <= i < |r| ==> r[i] in t && p(r[i])
    ensures forall i :: 0 <= i < |t| && p(t[i]) ==> t[i] in r
    ensures |r| == |t| <==> forall i :: 0 <= i < |t| ==> p(t[i])
  {
    if |t| == 0 then [] else (if p(t[0]) then [t[0]] else []) + Filter(t[1..], p)
  }

  /**
   * A filter keeps every matching row exactly as often as the table holds it
   * and drops every other row: the multiset view of a `WHERE` clause.
   */
  lemma {:induction false} FilterCounts<T(!new)>(t: seq<T>, p: T -> bool)
    ensures forall x {:trigger multiset(Filter(t, p))[x]} ::
              multiset(Filter(t, p))[x] == (if p(x) then multiset(t)[x] else 0)
  {
    if |t| > 0 {
      FilterCounts(t[1..], p);
      assert t == [t[0]] + t[1..];
      assert multiset(t) == multiset{t[0]} + multiset(t[1..]);
      var head := if p(t[0]) then [t[0]] else [];
      assert Filter(t, p) == head + Filter(t[1..], p);
      assert multiset(Filter(t, p)) == multiset(head) + multiset(Filter(t[1..], p));
    }
  }

  /**
   * Filtering keeps table order: the matches of a concatenation are the
   * matches of its first part followed by those of its second.
   */
  lemma {:induction false} FilterAppend<T(!new)>(a: seq<T>, b: seq<T>, p: T -> bool)
    ensures Filter(a + b, p) == Filter(a, p) + Filter(b, p)
  {
    if |a| > 0 {
      FilterAppend(a[1..], b, p);
      assert (a + b)[1..] == a[1..] + b;
    } else {
      assert a + b == b;
    }
  }

  /** The first row of `t` satisfying `p`: `Filter` followed by `first()`. */
  function First<T(==,!new)>(t: seq<T>, p: T -> bool): (r: Option<T>)
    ensures r.None? <==> forall i :: 0 <= i < |t| ==> !p(t[i])
    ensures r.Some? ==> exists i :: 0 <= i < |t| && t[i] == r.value && p(t[i]) && forall j :: 0 <= j < i ==> !p(t[j])
  {
    var rows := Filter(t, p);
    FilterHead(t, p);
    if |rows| == 0 then None else Some(rows[0])
  }

  /** The head of a filter is the earliest matching row. */
  lemma {:induction false} FilterHead<T(!new)>(t: seq<T>, p: T -> bool)
    ensures |Filter(t, p)| == 0 <==> forall i :: 0 <= i < |t| ==> !p(t[i])
    ensures |Filter(t, p)| > 0 ==>
      exists i :: 0 <= i < |t| && t[i] == Filter(t, p)[0] && p(t[i]) && forall j :: 0 <= j < i ==> !p(t[j])
  {
    if |t| > 0 {
      FilterHead(t[1..], p);
      if !p(t[0]) && |Filter(t[1..], p)| > 0 {
        var i :| 0 <= i < |t[1..]| && t[1..][i] == Filter(t[1..], p)[0] && p(t[1..][i])
          && forall j :: 0 <= j < i ==> !p(t[1..][j]);
        assert t[i + 1] == Filter(t, p)[0];
        assert forall j :: 0 <= j < i + 1 ==> !p(t[j]) by {
          forall j | 0 <= j < i + 1 ensures !p(t[j]) {
            if j > 0 { assert t[j] == t[1..][j - 1]; }
          }
        }
      }
      if !p(t[0]) && |Filter(t[1..], p)| == 0 {
        assert forall i :: 0 <= i < |t| ==> !p(t[i]) by {
          forall i | 0 <= i < |t| ensures !p(t[i]) {
            if i > 0 { assert t[i] == t[1..][i - 1]; }
          }
        }
      }
    }
  }

  /** A row appended to a table with no earlier match is the first match. */
  lemma FirstOfAppended<T(!new)>(t: seq<T>, x: T, p: T -> bool)
    requires forall i :: 0 <= i < |t| ==> !p(t[i])
    requires p(x)
    ensures First(t + [x], p) == Some(x)
  {
    var i :| 0 <= i < |t + [x]| && (t + [x])[i] == First(t + [x], p).value && p((t + [x])[i]);
  }

  /** Every key of `s` is at least every later key. */
  ghost predicate SortedDesc<T>(s: seq<T>, key: T -> int) {
    forall i, j :: 0 <= i < j < |s| ==> key(s[i]) >= key(s[j])
  }

  /** Inserts `x` into a descending sequence before the first smaller-or-equal key. */
  function InsertDesc<T(==)>(x: T, s: seq<T>, key: T -> int): (r: seq<T>)
    requires SortedDesc(s, key)
    ensures SortedDesc(r, key)
    ensures multiset(r) == multiset(s) + multiset{x}
    ensures |r| == |s| + 1 && (r[0] == x || (|s| > 0 && r[0] == s[0]))
  {
    if |s| == 0 then [x]
    else if key(x) >= key(s[0]) then [x] + s
    else
      var rest := InsertDesc(x, s[1..], key);
      assert s == [s[0]] + s[1..];
      assert key(s[0]) >= key(rest[0]);
      [s[0]] + rest
  }

  /** `order(key.desc())`: the rows of `t`, rearranged so keys never increase. */
  function SortDesc<T(==)>(t: seq<T>, key: T -> int): (r: seq<T>)
    ensures SortedDesc(r, key)
    ensures multiset(r) == multiset(t)
  {
    if |t| == 0 then []
    else
      assert t == [t[0]] + t[1..];
      InsertDesc(t[0], SortDesc(t[1..], key), key)
  }
}

=== FILE: session.dfy ===
/**
 * The session cookie of `utils.rs`: a JWT whose claims carry the user id as
 * `sub` and the expiry as `exp` (sections 4.1.2 and 4.1.4 of RFC 7519).
 * Signing and verifying the JWT are the `jsonwebtoken` library's, so they
 * come in as an `Encoder` and a `Decoder`; what the backend does around them
 * is modelled exactly.
 */
module Session {
  import opened Wrappers
  import opened Numbers

  datatype Claims = Claims(sub: string, exp: usize)

  /** `jsonwebtoken::encode` with the default header and the server secret. */
  type Encoder = Claims -> string

  /** `jsonwebtoken::decode` with the server secret and the default validation; `Err` carries the library's error text. */
  type Decoder = string -> Result<Claims, string>

  /**
   * What the backend relies on of the two: a token it signed decodes back to
   * its claims while they have not expired. This is a hypothesis of the
   * lemmas that need it, never assumed of every decoder.
   */
  ghost predicate DecodesOwnTokens(encode: Encoder, decode: Decoder, now: int) {
    forall c: Claims :: now <= c.exp ==> decode(encode(c)) == Ok(c)
  }

  /** `jwt_from_id`: the signed token of the claims `sub = userId`, `exp = timestamp`. */
  function JwtFromId(userId: string, timestamp: usize, encode: Encoder): (jwt: string)
  {
    encode(Claims(userId, timestamp))
  }

  /** `claim_form_jwt`: `None` exactly when decoding fails, the decoded claims otherwise. */
  function ClaimFromJwt(jwt: string, decode: Decoder): (r: Option<Claims>)
    ensures r.None? <==> decode(jwt).Err?
    ensures r.Some? ==> r.value == decode(jwt).value
  {
    var token := decode(jwt);
    if token.Err? then None else Some(token.value)
  }

  /**
   * `get_user_id_from_cookie`: no cookie, a cookie whose value does not
   * decode, or a `sub` that is not an i32 all give `None`; otherwise the
   * parsed `sub`.
   */
  function GetUserIdFromCookie(cookie: Option<string>, decode: Decoder): (r: Option<int32>)
    ensures cookie.None? ==> r.None?
    ensures cookie.Some? && decode(cookie.value).Err? ==> r.None?
    ensures cookie.Some? && decode(cookie.value).Ok? ==> r == ParseI32(decode(cookie.value).value.sub)
  {
    if cookie.None? then None
    else
      var claim := ClaimFromJwt(cookie.value, decode);
      if claim.None? then None
      else ParseI32(claim.value.sub)
  }

  /** `jwt_from_id` puts `sub` and `exp` where `claim_form_jwt` reads them back. */
  lemma JwtClaimsRoundTrip(encode: Encoder, decode: Decoder, now: int, userId: string, timestamp: usize)
    requires DecodesOwnTokens(encode, decode, now)
    requires now <= timestamp
    ensures ClaimFromJwt(JwtFromId(userId, timestamp, encode), decode) == Some(Claims(userId, timestamp))
  {
    assert decode(encode(Claims(userId, timestamp))) == Ok(Claims(userId, timestamp));
  }

  /** A session cookie issued for user `n` (its id printed in decimal) identifies user `n` until it expires. */
  lemma SessionCookieRoundTrip(encode: Encoder, decode: Decoder, now: int, n: int32, timestamp: usize)
    requires DecodesOwnTokens(encode, decode, now)
    requires now <= timestamp
    ensures GetUserIdFromCookie(Some(JwtFromId(I32ToString(n), timestamp, encode)), decode) == Some(n)
  {
    JwtClaimsRoundTrip(encode, decode, now, I32ToString(n), timestamp);
    I32RoundTrip(n);
  }
}

=== FILE: user_routes.dfy ===
/**
 * The decisions of `routes/user.rs`: the order of the registration and
 * login checks, how each failure becomes a field error, the session cookie
 * a success sets, and the `me` projection. Argon2 comes in as functions;
 * the clock is the `now` parameter (seconds since the epoch).
 */
module UserRoutes {
  import opened Wrappers
  import opened Numbers
  import opened Models
  import UserTable
  import Session

  /** The session lifetime: 365 days of 24 hours of 60 minutes of 60 seconds. */
  const SESSION_LIFETIME: int := 365 * 24 * 60 * 60

  const PASSWORDS_DIFFER: string := "passwords dont match"
  const HASH_FAILED: string := "something went wrong when trying to hash a password"
  const EMAIL_TAKEN: string := "user with this email already exists"
  const CREATE_FAILED: string := "failed to create a user"
  const INVALID_EMAIL: string := "invalid email"
  const INVALID_PASSWORD: string := "invalid password"
  const INVALID_USER_ID: string := "invalid user_id"

  /** One entry of the `errors` list of a reply. */
  datatype FieldError = FieldError(field: string, message: string)

  /** `{"worked":true}` with the session cookie set to `session`, or the `errors` list. */
  datatype UserReply = Worked(session: string) | Errors(errors: seq<FieldError>)

  /** The users table after a request, and the reply. */
  datatype Outcome = Outcome(users: seq<User>, reply: UserReply)

  /** `hash_password` with the salt drawn for this request: the PHC string, `None` on failure. */
  type Hasher = string -> Option<string>

  /** `PasswordHash::new`: whether a stored string parses as a PHC hash. */
  type HashParser = string -> bool

  /** `verify_password`: whether a candidate password matches a stored (parsed) hash. */
  type PasswordCheck = (string, string) -> bool

  /**
   * The cookie's expiry, `(now + 365 days) as usize`: the sum itself when
   * it is a valid usize, wrapped once when negative, as the cast from i64
   * does.
   */
  function SessionExpiry(now: int): (r: usize)
    ensures 0 <= now + SESSION_LIFETIME < U64_MODULUS ==> r == now + SESSION_LIFETIME
    ensures -U64_MODULUS <= now + SESSION_LIFETIME < 0 ==> r == now + SESSION_LIFETIME + U64_MODULUS
  {
    AsUsize(now + SESSION_LIFETIME)
  }

  /** The session cookie value for user `id`. */
  function SessionFor(id: int32, now: int, encode: Session.Encoder): string {
    Session.JwtFromId(I32ToString(id), SessionExpiry(now), encode)
  }

  /** How a failed insert is reported: the email constraint names the email field, anything else the password field. */
  function InsertErrorField(e: string): (f: FieldError)
    ensures f == FieldError("email", EMAIL_TAKEN) <==> e == UserTable.DUPLICATE_EMAIL
    ensures f != FieldError("email", EMAIL_TAKEN) ==> f == FieldError("password", CREATE_FAILED)
  {
    if e == UserTable.DUPLICATE_EMAIL then FieldError("email", EMAIL_TAKEN) else FieldError("password", CREATE_FAILED)
  }

  /**
   * `register`: the repeated password must match before anything is hashed;
   * then the password is hashed; then the user is inserted with the hash as
   * password; then the new row is looked up by email to name the session.
   * `fault` is a database error other than the email constraint.
   */
  function Register(users: seq<User>, reg: RegisterUser, hash: Hasher, nextId: int32, fault: Option<string>,
                    now: int, encode: Session.Encoder): (r: Outcome)
    ensures reg.repPassword != reg.password ==> r == Outcome(users, Errors([FieldError("password", PASSWORDS_DIFFER)]))
    ensures reg.repPassword == reg.password && hash(reg.password).None? ==>
              r == Outcome(users, Errors([FieldError("password", HASH_FAILED)]))
    ensures reg.repPassword == reg.password && hash(reg.password).Some? && fault.Some? ==>
              r == Outcome(users, Errors([InsertErrorField(fault.value)]))
    ensures reg.repPassword == reg.password && hash(reg.password).Some? && fault.None? && UserTable.HasEmail(users, reg.email) ==>
              r == Outcome(users, Errors([FieldError("email", EMAIL_TAKEN)]))
    ensures r.reply.Worked? <==>
              reg.repPassword == reg.password && hash(reg.password).Some? && fault.None? && !UserTable.HasEmail(users, reg.email)
    ensures r.reply.Worked? ==>
              && r.users == users + [User(nextId, reg.email, hash(reg.password).value, reg.firstName, reg.lastName)]
              && r.reply.session == SessionFor(nextId, now, encode)
    ensures !r.reply.Worked? ==> r.users == users
  {
    if reg.repPassword != reg.password then Outcome(users, Errors([FieldError("password", PASSWORDS_DIFFER)]))
    else
      var hashed := hash(reg.password);
      if hashed.None? then Outcome(users, Errors([FieldError("password", HASH_FAILED)]))
      else
        var newUser := NewUserFrom(reg.(password := hashed.value));
        match UserTable.InsertUser(users, newUser, nextId, fault)
        case Err(e) => Outcome(users, Errors([InsertErrorField(e)]))
        case Ok(inserted) =>
          UserTable.InsertedUserIsFound(users, newUser, nextId);
          var found := UserTable.GetUserByEmail(inserted, newUser.email);
          if |found| == 0 then Outcome(inserted, Errors([FieldError("password", CREATE_FAILED)]))
          else Outcome(inserted, Worked(SessionFor(found[0].id, now, encode)))
  }

  /**
   * `login`: the email must be known; the first row with it must hold a
   * parsable hash that the password verifies against. Both password
   * failures give the same error.
   */
  function Login(users: seq<User>, login: LoginUser, parses: HashParser, verifies: PasswordCheck,
                 now: int, encode: Session.Encoder): (r: UserReply)
    ensures !UserTable.HasEmail(users, login.email) ==> r == Errors([FieldError("email", INVALID_EMAIL)])
    ensures r.Worked? <==>
              && UserTable.HasEmail(users, login.email)
              && var first := UserTable.GetUserByEmail(users, login.email)[0];
                 parses(first.password) && verifies(login.password, first.password)
    ensures UserTable.HasEmail(users, login.email) && !r.Worked? ==> r == Errors([FieldError("password", INVALID_PASSWORD)])
    ensures r.Worked? ==> r.session == SessionFor(UserTable.GetUserByEmail(users, login.email)[0].id, now, encode)
  {
    var found := UserTable.GetUserByEmail(users, login.email);
    if |found| == 0 then Errors([FieldError("email", INVALID_EMAIL)])
    else if !parses(found[0].password) then Errors([FieldError("password", INVALID_PASSWORD)])
    else if !verifies(login.password, found[0].password) then Errors([FieldError("password", INVALID_PASSWORD)])
    else Worked(SessionFor(found[0].id, now, encode))
  }

  /** `get_me`: the first user with this id, without the password; an unknown id is an error. */
  function GetMe(users: seq<User>, userId: int32): (r: Result<Me, string>)
    ensures r.Err? <==> forall i :: 0 <= i < |users| ==> users[i].id != userId
    ensures r.Err? ==> r.error == INVALID_USER_ID
    ensures r.Ok? ==> exists u :: u in users && u.id == userId && r.value == Me(u.id, u.email, u.firstName, u.lastName)
  {
    var found := UserTable.GetUserById(users, userId);
    if |found| == 0 then
      assert forall i :: 0 <= i < |users| ==> users[i].id != userId by {
        forall i | 0 <= i < |users| ensures users[i].id != userId {
          assert users[i] in users;
        }
      }
      Err(INVALID_USER_ID)
    else
      var u := found[0];
      assert u in found;
      Ok(Me(u.id, u.email, u.firstName, u.lastName))
  }

  /** The session cookie made for user `id` at time `now` names `id` until it expires, a year later. */
  lemma SessionForIdentifiesUser(id: int32, now: int, encode: Session.Encoder, decode: Session.Decoder, at: int)
    requires Session.DecodesOwnTokens(encode, decode, at) && at <= SessionExpiry(now)
    ensures Session.GetUserIdFromCookie(Some(SessionFor(id, now, encode)), decode) == Some(id)
  {
    Session.SessionCookieRoundTrip(encode, decode, at, id, SessionExpiry(now));
  }

  /** The cookie a registration sets identifies the new user until it expires. */
  lemma RegisterSessionIdentifiesUser(users: seq<User>, reg: RegisterUser, hash: Hasher, nextId: int32,
                                      now: int, encode: Session.Encoder, decode: Session.Decoder, at: int)
    requires Session.DecodesOwnTokens(encode, decode, at) && at <= SessionExpiry(now)
    ensures var r := Register(users, reg, hash, nextId, None, now, encode);
            r.reply.Worked? ==> Session.GetUserIdFromCookie(Some(r.reply.session), decode) == Some(nextId)
  {
    SessionForIdentifiesUser(nextId, now, encode, decode, at);
  }

  /**
   * Registering and then logging in with the same email and password works
   * when the hash is one Argon2 can parse and verify the password against,
   * and the login cookie names the new user.
   */
  lemma RegisterThenLogin(users: seq<User>, reg: RegisterUser, hash: Hasher, nextId: int32, now: int, later: int,
                          parses: HashParser, verifies: PasswordCheck, encode: Session.Encoder)
    requires hash(reg.password).Some? ==> parses(hash(reg.password).value) && verifies(reg.password, hash(reg.password).value)
    ensures var r := Register(users, reg, hash, nextId, None, now, encode);
            r.reply.Worked? ==>
              Login(r.users, LoginUser(reg.email, reg.password), parses, verifies, later, encode)
                == Worked(SessionFor(nextId, later, encode))
  {
    if Register(users, reg, hash, nextId, None, now, encode).reply.Worked? {
      var newUser := NewUserFrom(reg.(password := hash(reg.password).value));
      UserTable.InsertedUserIsFound(users, newUser, nextId);
    }
  }
}

=== FILE: user_table.dfy ===
/** The queries of `models/user.rs` (and their copy in `models.rs`) over an in-memory `users` table. */
module UserTable {
  import opened Wrappers
  import opened Numbers
  import opened Models
  import Rows

  /** PostgreSQL's message for a second user with the same email. */
  const DUPLICATE_EMAIL: string := "duplicate key value violates unique constraint \"users_email_key\""

  predicate HasEmail(t: seq<User>, email: string) {
    exists i :: 0 <= i < |t| && t[i].email == email
  }

  function UserKey(u: User): int {
    u.id
  }

  /** `get_all_users`: every row, ordered by id descending. */
  function GetAllUsers(t: seq<User>): (r: seq<User>)
    ensures multiset(r) == multiset(t)
    ensures forall i, j :: 0 <= i < j < |r| ==> r[i].id >= r[j].id
  {
    Rows.SortDesc(t, UserKey)
  }

  /**
   * `insert_user`: the database gives the row the next serial `id`. The
   * `users_email_key` constraint makes a taken email fail with its message;
   * `fault` is any other database error, which wins when present.
   */
  function InsertUser(t: seq<User>, u: NewUser, nextId: int32, fault: Option<string>): (r: Result<seq<User>, string>)
    ensures fault.Some? ==> r == Err(fault.value)
    ensures fault.None? && HasEmail(t, u.email) ==> r == Err(DUPLICATE_EMAIL)
    ensures r.Ok? ==> r.value == t + [User(nextId, u.email, u.password, u.firstName, u.lastName)]
    ensures fault.None? && !HasEmail(t, u.email) ==> r.Ok?
  {
    if fault.Some? then Err(fault.value)
    else if HasEmail(t, u.email) then Err(DUPLICATE_EMAIL)
    else Ok(t + [User(nextId, u.email, u.password, u.firstName, u.lastName)])
  }

  /** `get_user_by_email`: exactly the rows with this email, in table order. */
  function GetUserByEmail(t: seq<User>, email: string): (r: seq<User>)
    ensures forall u :: u in r <==> u in t && u.email == email
    ensures forall u {:trigger multiset(r)[u]} :: multiset(r)[u] == (if u.email == email then multiset(t)[u] else 0)
    ensures |r| == 0 <==> !HasEmail(t, email)
  {
    var withEmail := (u: User) => u.email == email;
    Rows.FilterCounts(t, withEmail);
    var r := Rows.Filter(t, withEmail);
    assert |r| > 0 ==> r[0] in t && r[0].email == email;
    r
  }

  /** `get_user_by_id`: exactly the rows with this id, in table order. */
  function GetUserById(t: seq<User>, id: int32): (r: seq<User>)
    ensures forall u :: u in r <==> u in t && u.id == id
    ensures forall u {:trigger multiset(r)[u]} :: multiset(r)[u] == (if u.id == id then multiset(t)[u] else 0)
  {
    var withId := (u: User) => u.id == id;
    Rows.FilterCounts(t, withId);
    Rows.Filter(t, withId)
  }

  /** After a successful insert, looking the email up finds the new row first. */
  lemma InsertedUserIsFound(t: seq<User>, u: NewUser, nextId: int32)
    requires !HasEmail(t, u.email)
    ensures InsertUser(t, u, nextId, None).Ok?
    ensures GetUserByEmail(InsertUser(t, u, nextId, None).value, u.email)
            == [User(nextId, u.email, u.password, u.firstName, u.lastName)]
  {
    var row := User(nextId, u.email, u.password, u.firstName, u.lastName);
    Rows.FilterAppend(t, [row], (x: User) => x.email == u.email);
    NoMatchFilterEmpty(t, (x: User) => x.email == u.email);
  }

  lemma NoMatchFilterEmpty<T(!new)>(t: seq<T>, p: T -> bool)
    requires forall i :: 0 <= i < |t| ==> !p(t[i])
    ensures Rows.Filter(t, p) == []
  {
  }
}

=== FILE: wrappers.dfy ===
/** Option and Result, the two shapes every fallible step of the backend returns. */
module Wrappers {

  /** Rust's `Option<T>`. */
  datatype Option<+T> = None | Some(value: T) {

    /** `Option::unwrap_or`. */
    function GetOr(default: T): T {
      match this
      case Some(v) => v
      case None => default
    }
  }

  /** Rust's `Result<T, E>`. */
  datatype Result<+T, +E> = Ok(value: T) | Err(error: E)
}
